=== FILE: README.md ===
# daily-log-sync, modelled in Dafny

daily-log-sync keeps a team's daily work logs in a shared GitHub repository.
Each log is a Markdown file. It opens with a small YAML-like *front matter*
block holding the member id, name, date, sync time and team, and it may also
hold structured data: tasks done, in progress and planned, an `ai_learning`
entry, and a summary of blockers. A second script watches the repository's
issues for questions addressed to one member and keeps a small JSON state of
what it has already answered.

This project models the pure logic that sits between the HTTP calls, and
proves properties about it:

- **`wrappers.dfy`**: `Option` and `Result`.
- **`text.dfy`**: the Python string operations the scripts rely on:
  - `strip`/`rstrip` over Python's whitespace set;
  - `split` on one character and `"\n".join`;
  - `in`, `replace` (removing a suffix), ASCII `lower`, and where
    `split("---", 2)` cuts;
  - Python's lexicographic `<` on strings. Dafny's own `<` on sequences means
    "proper prefix", so the model defines this order separately.
- **`front_matter.dfy`**: `parse_front_matter`, a never-failing line parser.
  It tracks the "current list" with a three-state cursor:
  - no list yet;
  - attached to a key;
  - orphaned, after a scalar line overwrote the key that owned the list. Later
    `  - ` items are then lost.
- **`log_content.dfy`**: the front-matter part of `create_log_content`. It
  also holds the reference decoding of what the block should read back as.
- **`round_trip.dfy`**: parsing a generated log returns exactly that
  reference decoding.
- **`paths.dfy`**: `get_file_path` over the fixed team table, and
  `encode_path` with `urllib.parse.quote(…, safe='')` written out over UTF-8.
- **`search.dfy`**: the per-member and per-file decision logic of
  `search_team_logs`, covering:
  - member filter, file selection, 20-newest cap and inclusive date window;
  - project/keyword/all classification and the excerpt;
  - the early stop at `limit`.
- **`issue_monitor.dfy`**:
  - the addressed-issue filter;
  - new-question and new-reply detection;
  - the idempotent state updates;
  - marking an issue answered only after a successful post.

Network listings, file contents, issues and comments are inputs. The clock
readings (`synced_at`, `datetime.now()` in the state, the title date,
weekday and footer time) are parameters.

In two places the code does something narrower than the search feature's description suggests, and the model follows the code:

- A search does not look at every log. For each member it takes the 20
  newest log files by file name, and only then applies the date window. A
  window older than a member's 20 newest logs therefore finds nothing for
  that member, even when older logs in the window exist.
- The no-filter excerpt is `AI 学习: ` followed by `str(ai_learning)`, and
  only when that value is truthy. `Search.GeneratedLogExcerpt` shows the
  value is never truthy for logs this tool writes from well-formed values
  (see `RoundTrip.CreateThenParse` under "## Left out"): the generator writes
  the `ai_learning` fields as indented lines, which the parser skips.

## Model

| member | source | states |
|---|---|---|
| Text.Split | scripts/github_sync.py:399 | `split('\n')` yields at least one piece, no piece holds the separator, and joining the pieces restores the text |
| Text.SplitJoin | scripts/github_sync.py:399 | splitting a join of separator-free pieces returns exactly those pieces |
| Text.StripSet | scripts/github_sync.py:407-411 | `strip(cs)` returns an infix of its input with no character of `cs` at either end |
| Text.FindFrom | scripts/github_sync.py:388 | where `split("---", 2)` cuts after the opening `---`: the position is an occurrence at or after index 3 and no earlier one exists there; `None` means there is nothing to cut at, so fewer than three parts |
| Text.LexNotLess | scripts/github_sync.py:507-510 | "not `a < b`" is exactly "`b <= a`" in Python's string order, so skipping `date < from` keeps `from <= date` |
| Text.LexTotal | scripts/issue_monitor.py:145 | any two strings are equal or ordered one way, as Python's `max` on timestamps needs |
| Text.LexTransitive | scripts/issue_monitor.py:145-148 | Python's string `<` is transitive |
| Text.RemoveAllSuffix | scripts/github_sync.py:505 | removing `_log.md` from `<date>_log.md` gives back the date when the date holds no underscore |
| FrontMatter.ParseFrontMatter | scripts/github_sync.py:383-424 | the empty mapping when the content does not start with `---` or has no second `---`; otherwise every key and item is whitespace-trimmed and every scalar quote-trimmed |
| FrontMatter.Step | scripts/github_sync.py:399-420 | one line keeps the list cursor pointing at a list-valued key, never removes a key, and keeps the mapping trimmed |
| FrontMatter.KeyLinePadded | scripts/github_sync.py:405-408 | a top-level `key :rest` line, with any whitespace between the key and the colon, is split at its first colon into the key with that whitespace trimmed off and the trimmed rest |
| FrontMatter.ScalarLine | scripts/github_sync.py:410-411 | `key: value` stores the string and leaves the current list alone, unless that list belonged to `key`, which orphans it |
| FrontMatter.ScalarLineQuoted | scripts/github_sync.py:405-411 | `key: "value"` (either quote character, at either end) stores the value with the surrounding quotes stripped, with the same effect on the current list |
| FrontMatter.ListKeyLine | scripts/github_sync.py:412-415 | `key:` with an empty value stores a fresh empty list and makes it the current list |
| FrontMatter.ItemLinePadded | scripts/github_sync.py:418-420 | a `  - ` line whose item is padded with whitespace on either side appends the trimmed item to the current list and changes nothing else |
| FrontMatter.ItemWithoutList | scripts/github_sync.py:418 | an item with no current list (none opened, or orphaned) changes nothing |
| FrontMatter.IndentedLine | scripts/github_sync.py:400-420 | a line starting with a space that does not start with `  - ` once stripped on the right (`    project: p`, `  -x`, the bare marker `  - `) is ignored |
| FrontMatter.SkippedLine | scripts/github_sync.py:400-402 | lines that are empty once stripped on the right (whitespace-only lines included) and `#` comment lines are ignored |
| FrontMatter.OrphanedItem | scripts/github_sync.py:410-420 | `k:` then `k: v` then `  - x` leaves `k` mapped to `v`, and the item reaches no list |
| FrontMatter.DuplicateKey | scripts/github_sync.py:410-411 | of two scalar lines with the same key, the later value wins |
| FrontMatter.ParseLinesAppend | scripts/github_sync.py:399-420 | reading two runs of lines is reading the first and then the second from the state it left |
| LogContent.FrontMatterLayout | scripts/github_sync.py:112-165 | the block opens and closes with `---` and lists member_id, member_name, date, synced_at, team and `source: claude-skill` in that order; without structured data nothing else is written; with it, a blank line and the banner follow, and the blockers summary is the last line before `---` |
| LogContent.StructuredLayout | scripts/github_sync.py:123-163 | the structured part starts with a blank line and the banner and ends with the blockers line |
| LogContent.AllBlockersMember | scripts/github_sync.py:156-163 | a blocker is in the summary iff some in-progress task lists it |
| LogContent.AllBlockersAppend | scripts/github_sync.py:157-159 | the summary of two task runs is the two summaries in order, so task order is kept |
| RoundTrip.CreateThenParse | scripts/github_sync.py:112-167 | parsing a generated log gives exactly the header fields and `source`, plus, with structured data, each non-empty task section as its list of `content: "…"` items, `ai_learning` as an empty list when present, and the blockers text; this holds for well-formed values |
| RoundTrip.DelimitedParse | scripts/github_sync.py:383-399 | a block of inline lines framed by `---` lines is parsed line by line, whatever follows the closing `---` |
| RoundTrip.FindClosing | scripts/github_sync.py:388 | the second `---` the split finds is the closing delimiter when the block holds no `---` |
| RoundTrip.HeaderParse | scripts/github_sync.py:112-120 | the six header lines read back as the six header entries, with no list current |
| RoundTrip.SectionParse | scripts/github_sync.py:127-144 | a task section reads back as its key mapped to the task items in order, or changes nothing when the list is empty |
| RoundTrip.TaskLinesParse | scripts/github_sync.py:129-139 | the task lines append the items, in order, to the current list; project and blockers detail lines are skipped |
| RoundTrip.AiParse | scripts/github_sync.py:146-154 | the `ai_learning` block reads back as an empty list, because its fields are indented lines |
| RoundTrip.StructuredParse | scripts/github_sync.py:123-163 | the structured part adds the sections, `ai_learning` and the blockers text to whatever was parsed before |
| RoundTrip.BlockParse | scripts/github_sync.py:112-165 | the lines between the delimiters read back as the reference decoding |
| Paths.GetFilePath | scripts/github_sync.py:72-77 | succeeds iff the team is one of china, middle_east, best_allies; otherwise it fails naming the team |
| Paths.FilePathSegments | scripts/github_sync.py:23-27 | for a slash-free member id and date the path splits into exactly `成员日志 members`, the team's directory, the member id and `<date>_log.md`; removing `_log.md` from the file name gives the date back when the date holds no underscore |
| Paths.EncodePathSegments | scripts/github_sync.py:65-70 | the encoded path has as many `/`-separated segments as the original, each the quoted original segment |
| Paths.Quote | scripts/github_sync.py:69 | a quoted segment never contains `/` and is no shorter than the original |
| Paths.QuoteDecodes | scripts/github_sync.py:69 | percent-decoding a quoted segment yields exactly its UTF-8 bytes, so nothing is lost |
| Paths.QuoteUnreserved | scripts/github_sync.py:69 | a segment of unreserved characters is left unchanged |
| Search.SearchFindsPushedPath | scripts/github_sync.py:467-468 | a log pushed for a known team (path built at line 77) lies under that team's search directory; an unknown team is refused by pushing and searched as the china team |
| Search.LogFiles | scripts/github_sync.py:499 | only `_log.md` files are kept, none more often than listed, and every `_log.md` file of the listing is kept |
| Search.InsertSorted | scripts/github_sync.py:500 | inserting into a name-descending list keeps it name-descending |
| Search.SortDescSorted | scripts/github_sync.py:500 | the sort orders names descending; `SortDesc`'s own contract makes it a permutation |
| Search.SelectFilesSpec | scripts/github_sync.py:499-503 | at most 20 log files of the listing, in descending name order, chosen before the date window applies; a log file left out means 20 were selected, each with a name at least as large |
| Search.DateRangeInclusive | scripts/github_sync.py:505-510 | a date is kept iff `from <= date` (when given) and `date <= to` (when given) |
| Search.FirstLineWith | scripts/github_sync.py:544-547 | the reported line contains the lowered keyword and no earlier line does; `None` means no line does |
| Search.Assess | scripts/github_sync.py:529-561 | a file matches iff a front-matter value contains the project, or the content contains the keyword, or neither is given; a keyword hit is typed `keyword` even when the project also matched; a project-only hit is typed `project`; no filters means `all` |
| Search.KeywordExcerpt | scripts/github_sync.py:536-551 | when line `i` is the first line containing the keyword, the excerpt is lines `i-2` to `i+2` joined, clipped at the document's ends, even if the project also matched |
| Search.NoFilterMatchesAll | scripts/github_sync.py:553-559 | with neither keyword nor project, every fetched file in the date window is an `all` hit; its excerpt is `AI 学习: ` and `str(ai_learning)`, clipped, when `ai_learning` is truthy, and empty otherwise |
| Search.EvaluateFile | scripts/github_sync.py:504-573 | a file yields a hit iff its date is in the window, its content was fetched and the assessment matches; the hit carries the assessed type, the assessed excerpt clipped, the parsed front matter, the file's date, URL and member, and as member name the front matter's `member_name` or else the member id |
| Search.KeywordFileFound | scripts/github_sync.py:536-547 | a fetched in-window file whose line `i` is the first to contain the keyword is found as a `keyword` hit whose excerpt is that line's context, clipped |
| Search.ProjectFileFound | scripts/github_sync.py:529-534 | a fetched in-window file whose front matter mentions the project, and which the keyword does not hit, is found as a `project` hit with the excerpt `项目: <project>`, clipped |
| Search.Clip | scripts/github_sync.py:567 | `excerpt[:300]` is the prefix of length `min(len, 300)`: the whole excerpt when shorter, exactly 300 characters otherwise |
| Search.Cap | scripts/github_sync.py:572-573 | the returned hits are the first `max(limit, 1)` hits, or all of them if fewer |
| Search.Collect | scripts/github_sync.py:503-573 | appending a member's hits stops exactly when the list reaches `max(limit, 1)`, and what was appended is a prefix of that member's hits |
| Search.SearchTeamLogs | scripts/github_sync.py:487-577 | the early-stopping sweep returns exactly the first `max(limit, 1)` hits of the full member-by-member, file-by-file scan |
| Search.HitsSound | scripts/github_sync.py:483-573 | every hit belongs to a listed member that passed the member filter, lies in the date window and has an excerpt of at most 300 characters |
| Search.LineHitIsHit | scripts/github_sync.py:538-546 | a keyword found on one line is found in the whole content, so the line search runs only inside a content hit |
| Search.GeneratedLogExcerpt | scripts/github_sync.py:554-559 | for a log written by `create_log_content` from well-formed values, a no-filter match has an empty excerpt |
| IssueMonitor.IssuesFor | scripts/issue_monitor.py:72-80 | every kept issue is addressed to the member |
| IssueMonitor.IssuesForMember | scripts/issue_monitor.py:72-78 | an issue is kept iff it is listed and its lowered title contains the lowered member id, or its body contains `@member` case-sensitively (a null body counts as empty) |
| IssueMonitor.IssuesForAppend | scripts/issue_monitor.py:72-80 | filtering preserves the listing order |
| IssueMonitor.NewQuestionsExactly | scripts/issue_monitor.py:92-121 | an issue is a new question iff it is addressed, its number is not in `replied_issues`, and none of its comments is by the member |
| IssueMonitor.NewQuestionsInOrder | scripts/issue_monitor.py:100-123 | new questions are reported in listing order |
| IssueMonitor.MyCommentTimes | scripts/issue_monitor.py:136-139 | the collected times are exactly the creation times of the member's comments; there are none iff the member never commented |
| IssueMonitor.MaxString | scripts/issue_monitor.py:145 | `max` of the times is one of them and no other is greater |
| IssueMonitor.NoRepliesWithoutMine | scripts/issue_monitor.py:141-142 | an issue the member never commented on yields no reply |
| IssueMonitor.RepliesOnExactly | scripts/issue_monitor.py:136-158 | a comment is reported iff the member commented on the issue, the comment is by someone else, it is strictly later than every comment of the member, and its id is not in `replied_comments` |
| IssueMonitor.SameTimeNotReported | scripts/issue_monitor.py:148 | a comment timestamped exactly like one of the member's own is not reported |
| IssueMonitor.RepliesAmongSound | scripts/issue_monitor.py:133-158 | every reported reply comes from such a comment on a listed issue |
| IssueMonitor.RepliesAmongComplete | scripts/issue_monitor.py:133-158 | every such comment on a listed issue is reported |
| IssueMonitor.AppendNew | scripts/issue_monitor.py:183-184 | the id is present afterwards, the old list is a prefix of the new one, at most one element is added, and nothing is added when the id was already there |
| IssueMonitor.MarkIssueReplied | scripts/issue_monitor.py:180-186 | the issue number is recorded, earlier entries keep their order, the comment list is unchanged and `last_check` is the given time |
| IssueMonitor.MarkCommentReplied | scripts/issue_monitor.py:188-194 | the comment id is recorded, earlier entries keep their order, the issue list is unchanged and `last_check` is the given time |
| IssueMonitor.MarkIdempotent | scripts/issue_monitor.py:183-185 | marking the same id twice equals marking it once, at the later time |
| IssueMonitor.MarkKeepsDistinct | scripts/issue_monitor.py:183-192 | marking never introduces a duplicate into a duplicate-free list |
| IssueMonitor.ReplyToIssue | scripts/issue_monitor.py:249-252 | the issue is marked answered iff the post succeeded; a failed post leaves the state unchanged |
| IssueMonitor.AnsweredNotAskedAgain | scripts/issue_monitor.py:249-251 | after a successful reply the issue is no longer a new question; after a failed one the report is unchanged |

## Left out

- HTTP traffic is not modelled: requests, status codes other than the 201 of a post, timeouts, base64, and `push_log`, `pull_log`, `pull_team_daily_logs`, `test_connection`. The fetched listings, file contents, issues and comments are inputs. A member listing answered with a status other than 200 appears as `None`, and so does a file download that fails in any way.
- Search.SearchTeamLogs: a member listing request that raises (a timeout or a connection error at scripts/github_sync.py:492) is not modelled. The source catches it in the outer handler at lines 580-582 and ends the whole search with the hits found so far; the model has no way for a listing to raise.
- Token handling (`set_token`, `get_token`, `get_headers`) is not modelled; it is environment state with no decision logic.
- Reading and writing the JSON state file is not modelled. The state is an immutable record passed in and returned, and `DefaultState` is what `load_state` yields without a file.
- `datetime.now()`, `strptime`, weekday names and date formatting are parameters of `CreateLogContent`, `MarkIssueReplied` and `MarkCommentReplied`.
- Console output, CLI dispatch and the `except: continue` / `except: return {}` clauses are not modelled. No modelled operation can raise, so these branches never run.
- Directory entries that are not directories are not filtered by the model. The member list is given as the directories already.
- Text.Lower: lowers ASCII letters only, while Python's `str.lower` follows Unicode (and may change a string's length).
- LogContent.PyRepr: renders a list of strings as `['a', 'b']` without Python's escaping of quotes and backslashes.
- RoundTrip.CreateThenParse: proved only for well-formed values: non-empty, single-line, free of `---`, and trimmed of whitespace and quote characters. For other values the parser changes or loses the data, and the source makes no promise.
- Search.GeneratedLogExcerpt: proved only for well-formed values, as for `RoundTrip.CreateThenParse`. The header is written unquoted (scripts/github_sync.py:115) and the block is split on newlines, so a `member_name` such as `"a\nai_learning: b"` makes the parser read an `ai_learning` key, and the no-filter excerpt becomes `AI 学习: b`.
- Search.Assess: the project test uses the modelled `str(v)` of a list value, so it inherits the `PyRepr` simplification above.
- FrontMatter.KeyLinePadded: assumes the line does not end in whitespace and the key does not start with a tab or other whitespace character besides a space. The source's `rstrip` and `key.strip()` would trim those too; the lemma does not state that case.
- IssueMonitor.Issue: models the fields the decisions use. The reported question record is the issue itself.

=== FILE: front_matter.dfy ===
/** `parse_front_matter` (scripts/github_sync.py): a never-failing, line-based
    reader of the metadata block between the two leading `---` markers of a
    log document. It understands top-level `key: value` lines and `  - item`
    lines under a key whose value is empty; everything else is skipped. */
module FrontMatter {
  import opened Wrappers
  import opened Text

  /** A decoded value: a scalar string or a list of item strings. */
  datatype Value = Str(s: string) | List(items: seq<string>) {
    /** Python truthiness: non-empty string or non-empty list. */
    predicate Truthy() {
      if Str? then |s| > 0 else |items| > 0
    }
  }

  type Data = map<string, Value>

  const Delimiter: string := "---"
  const QuoteChars: set<char> := {'"', '\''}
  const ItemMarker: string := "  - "

  /** Where `  - ` items go. The source keeps a reference to the list most
      recently created by an empty-valued key; a later scalar under that same
      key replaces the list in the mapping but not the reference, so further
      items are appended to a list nobody can see any more (`Orphaned`). */
  datatype Cursor = NoList | Attached(key: string) | Orphaned

  datatype ParseState = ParseState(data: Data, cursor: Cursor) {
    /** An attached cursor names a list that is still in the mapping. */
    predicate Valid() {
      cursor.Attached? ==> cursor.key in data && data[cursor.key].List?
    }
  }

  const Start: ParseState := ParseState(map[], NoList)

  /** Every key and list item is trimmed of whitespace, and every scalar is
      trimmed of quote characters. */
  predicate Trimmed(data: Data) {
    forall k :: k in data ==>
      && NoEdge(k, Whitespace)
      && (data[k].Str? ==> NoEdge(data[k].s, QuoteChars))
      && (data[k].List? ==> forall x :: x in data[k].items ==> NoEdge(x, Whitespace))
  }

  /** How one line of the block is read: skipped, a top-level `key: value`
      (split at the first colon, both sides trimmed), or a list item
      (the text after the four-character marker, trimmed). */
  datatype LineKind = Ignored | KeyValue(key: string, value: string) | Item(text: string)

  function Classify(raw: string): (k: LineKind)
    ensures k.KeyValue? ==> NoEdge(k.key, Whitespace) && NoEdge(k.value, Whitespace)
    ensures k.Item? ==> NoEdge(k.text, Whitespace)
  {
    ClassifyStripped(RStrip(raw))
  }

  /** `Classify` on a line already stripped on the right. */
  function ClassifyStripped(line: string): (k: LineKind)
    ensures k.KeyValue? ==> NoEdge(k.key, Whitespace) && NoEdge(k.value, Whitespace)
    ensures k.Item? ==> NoEdge(k.text, Whitespace)
  {
    if |line| == 0 || line[0] == '#' then Ignored
    else if ':' in line && line[0] != ' ' then
      var i := IndexOf(line, ':').value;
      KeyValue(Strip(line[..i]), Strip(line[i + 1..]))
    else if StartsWith(line, ItemMarker) then Item(Strip(line[4..]))
    else Ignored
  }

  /** The effect of one line on the mapping and the list cursor. */
  function Step(st: ParseState, raw: string): (r: ParseState)
    requires st.Valid()
    ensures r.Valid()
    ensures st.data.Keys <= r.data.Keys
    ensures Trimmed(st.data) ==> Trimmed(r.data)
  {
    Apply(st, Classify(raw))
  }

  /** Keys, values and items as `Classify` delivers them: trimmed. */
  predicate KindTrimmed(kind: LineKind) {
    && (kind.KeyValue? ==> NoEdge(kind.key, Whitespace) && NoEdge(kind.value, Whitespace))
    && (kind.Item? ==> NoEdge(kind.text, Whitespace))
  }

  /** A non-empty value is stored as a string with quotes stripped; an empty
      one opens a fresh list that becomes the current one; an item goes to
      the current list, if there is one. */
  function Apply(st: ParseState, kind: LineKind): (r: ParseState)
    requires st.Valid()
    ensures r.Valid()
    ensures st.data.Keys <= r.data.Keys
    ensures Trimmed(st.data) && KindTrimmed(kind) ==> Trimmed(r.data)
  {
    match kind
    case Ignored => st
    case KeyValue(k, v) =>
      if |v| > 0 then
        var s := StripSet(v, QuoteChars);
        TrimmedUpdate(st.data, k, Str(s));
        ParseState(st.data[k := Str(s)], if st.cursor == Attached(k) then Orphaned else st.cursor)
      else
        TrimmedUpdate(st.data, k, List([]));
        ParseState(st.data[k := List([])], Attached(k))
    case Item(x) =>
      match st.cursor
      case Attached(k) =>
        var items := st.data[k].items + [x];
        TrimmedUpdate(st.data, k, List(items));
        ParseState(st.data[k := List(items)], st.cursor)
      case _ => st
  }

  /** A well-shaped entry keeps the mapping trimmed. */
  lemma TrimmedUpdate(data: Data, k: string, val: Value)
    ensures Trimmed(data) && NoEdge(k, Whitespace)
            && (val.Str? ==> NoEdge(val.s, QuoteChars))
            && (val.List? ==> (forall x :: x in val.items ==> NoEdge(x, Whitespace)))
            ==> Trimmed(data[k := val])
  {
  }

  /** Reads the lines in order. Keys are never removed once seen. */
  function ParseLines(st: ParseState, lines: seq<string>): (r: ParseState)
    requires st.Valid()
    ensures r.Valid()
    ensures st.data.Keys <= r.data.Keys
    ensures Trimmed(st.data) ==> Trimmed(r.data)
    decreases |lines|
  {
    if |lines| == 0 then st else ParseLines(Step(st, lines[0]), lines[1..])
  }

  /** The whole parser. The content must open with `---` and hold a second
      `---` further on (Python's `split("---", 2)` yielding three parts);
      otherwise the result is empty. The block between them is trimmed and
      read line by line. */
  function ParseFrontMatter(content: string): (r: Data)
    ensures !StartsWith(content, Delimiter) ==> r == map[]
    ensures (forall j :: 3 <= j ==> !OccursAt(content, Delimiter, j)) ==> r == map[]
    ensures Trimmed(r)
  {
    if !StartsWith(content, Delimiter) then map[]
    else match FindFrom(content, Delimiter, 3)
      case None => map[]
      case Some(j) => ParseLines(Start, Split(Strip(content[3..j]), '\n')).data
  }

  // ------------------------------------------------------------------------
  // How each shape of line is read. These state the line grammar the
  // generator relies on, independently of how `Classify` is written.

  /** A key the generator writes: non-empty, trimmed, no colon, and not
      starting like a comment or an indented line. */
  predicate PlainKey(key: string) {
    |key| > 0 && ':' !in key && key[0] != '#' && NoEdge(key, Whitespace)
  }

  /** A scalar value that survives both trims unchanged. */
  predicate PlainValue(v: string) {
    |v| > 0 && NoEdge(v, Whitespace) && NoEdge(v, QuoteChars)
  }

  lemma RStripNoop(s: string)
    requires |s| > 0 && s[|s| - 1] !in Whitespace
    ensures RStrip(s) == s
  {
  }

  /** A line made of a plain key, a colon and a rest that does not end in
      whitespace is a top-level pair whose value is the trimmed rest. */
  lemma KeyLine(key: string, rest: string)
    requires PlainKey(key)
    requires |rest| > 0 ==> rest[|rest| - 1] !in Whitespace
    ensures Classify(key + [':'] + rest) == KeyValue(key, Strip(rest))
  {
    var line := key + [':'] + rest;
    assert line[|line| - 1] == if |rest| > 0 then rest[|rest| - 1] else ':';
    RStripNoop(line);
    KeyLineStripped(key, rest);
  }

  /** Whitespace between the key and the colon is trimmed off the key. */
  lemma KeyLinePadded(key: string, pad: string, rest: string)
    requires PlainKey(key)
    requires forall i :: 0 <= i < |pad| ==> pad[i] in Whitespace
    requires |rest| > 0 ==> rest[|rest| - 1] !in Whitespace
    ensures Classify(key + pad + [':'] + rest) == KeyValue(key, Strip(rest))
  {
    var kp := key + pad;
    var line := kp + [':'] + rest;
    assert line[|line| - 1] == if |rest| > 0 then rest[|rest| - 1] else ':';
    RStripNoop(line);
    PaddedKeyStripped(key, pad, rest);
  }

  lemma PaddedKeyStripped(key: string, pad: string, rest: string)
    requires PlainKey(key)
    requires forall i :: 0 <= i < |pad| ==> pad[i] in Whitespace
    ensures ClassifyStripped(key + pad + [':'] + rest) == KeyValue(key, Strip(rest))
  {
    var kp := key + pad;
    var line := kp + [':'] + rest;
    forall i | 0 <= i < |kp| ensures kp[i] != ':' {
      if i >= |key| {
        assert kp[i] == pad[i - |key|];
      }
    }
    IndexOfJoined(kp, ':', rest);
    assert line[0] == key[0];
    assert line[..|kp|] == kp;
    assert line[|kp| + 1..] == rest;
    assert kp == "" + key + pad;
    StripSetPadded("", key, pad, Whitespace);
  }

  lemma KeyLineStripped(key: string, rest: string)
    requires PlainKey(key)
    ensures ClassifyStripped(key + [':'] + rest) == KeyValue(key, Strip(rest))
  {
    var line := key + [':'] + rest;
    IndexOfJoined(key, ':', rest);
    assert line[0] == key[0];
    assert line[..|key|] == key;
    assert line[|key| + 1..] == rest;
    StripSetNoop(key, Whitespace);
  }

  /** `key: value` stores the value as a string; if the key owned the current
      list, that list is orphaned; otherwise the cursor is kept. */
  lemma ScalarLine(st: ParseState, key: string, v: string)
    requires st.Valid() && PlainKey(key) && PlainValue(v)
    ensures Step(st, key + ": " + v)
         == ParseState(st.data[key := Str(v)], if st.cursor == Attached(key) then Orphaned else st.cursor)
  {
    ScalarLineKind(key, v);
    StripSetNoop(v, QuoteChars);
  }

  /** `key: "value"` (or with single quotes, matched or not) stores the value
      without its surrounding quote characters. */
  lemma ScalarLineQuoted(st: ParseState, key: string, v: string, open: char, close: char)
    requires st.Valid() && PlainKey(key) && PlainValue(v)
    requires open in QuoteChars && close in QuoteChars
    ensures Step(st, key + ": " + [open] + v + [close])
         == ParseState(st.data[key := Str(v)], if st.cursor == Attached(key) then Orphaned else st.cursor)
  {
    var q := [open] + v + [close];
    QuotedKind(key, v, open, close);
    StripSetPadded([open], v, [close], QuoteChars);
    assert Step(st, key + ": " + [open] + v + [close]) == Apply(st, KeyValue(key, q));
  }

  lemma QuotedKind(key: string, v: string, open: char, close: char)
    requires PlainKey(key) && PlainValue(v)
    requires open in QuoteChars && close in QuoteChars
    ensures Classify(key + ": " + [open] + v + [close]) == KeyValue(key, [open] + v + [close])
  {
    var q := [open] + v + [close];
    assert key + ": " + [open] + v + [close] == key + [':'] + (" " + q);
    QuotedSpaced(q);
    KeyLine(key, " " + q);
  }

  /** A quoted value after the space that follows the colon strips back to
      the quoted value. */
  lemma QuotedSpaced(q: string)
    requires |q| >= 2 && q[0] in QuoteChars && q[|q| - 1] in QuoteChars
    ensures (" " + q)[|" " + q| - 1] !in Whitespace
    ensures Strip(" " + q) == q
  {
    assert " " + q == [' '] + q + "";
    StripSetPadded([' '], q, "", Whitespace);
  }

  lemma ScalarLineKind(key: string, v: string)
    requires PlainKey(key) && PlainValue(v)
    ensures Classify(key + ": " + v) == KeyValue(key, v)
  {
    assert key + ": " + v == key + [':'] + (" " + v);
    KeyLine(key, " " + v);
    SpacedValue(v);
  }

  lemma SpacedValue(v: string)
    requires PlainValue(v)
    ensures Strip(" " + v) == v
  {
    assert " " + v == [' '] + v + "";
    StripSetPadded([' '], v, "", Whitespace);
  }

  /** `key:` with nothing after it stores a fresh empty list and makes it the
      current one. */
  lemma ListKeyLine(st: ParseState, key: string)
    requires st.Valid() && PlainKey(key)
    ensures Step(st, key + ":") == ParseState(st.data[key := List([])], Attached(key))
  {
    assert key + ":" == key + [':'] + "";
    KeyLine(key, "");
  }

  lemma ItemKind(x: string)
    requires |x| > 0 && NoEdge(x, Whitespace)
    ensures Classify(ItemMarker + x) == Item(x)
  {
    var line := ItemMarker + x;
    assert line[|line| - 1] == x[|x| - 1];
    RStripNoop(line);
    assert line[0] == ' ';
    assert line[..4] == ItemMarker && line[4..] == x;
    StripSetNoop(x, Whitespace);
  }

  /** `  - item` appends the item to the current list. */
  lemma ItemLine(st: ParseState, x: string)
    requires st.Valid() && st.cursor.Attached?
    requires |x| > 0 && NoEdge(x, Whitespace)
    ensures Step(st, ItemMarker + x)
         == ParseState(st.data[st.cursor.key := List(st.data[st.cursor.key].items + [x])], st.cursor)
  {
    ItemKind(x);
  }

  /** `  - ` followed by an item padded with whitespace on either side
      appends the trimmed item to the current list. */
  lemma ItemLinePadded(st: ParseState, pre: string, x: string, post: string)
    requires st.Valid() && st.cursor.Attached?
    requires forall i :: 0 <= i < |pre| ==> pre[i] in Whitespace
    requires forall i :: 0 <= i < |post| ==> post[i] in Whitespace
    requires |x| > 0 && NoEdge(x, Whitespace)
    ensures Step(st, ItemMarker + pre + x + post)
         == ParseState(st.data[st.cursor.key := List(st.data[st.cursor.key].items + [x])], st.cursor)
  {
    PaddedItemKind(pre, x, post);
  }

  lemma PaddedItemKind(pre: string, x: string, post: string)
    requires forall i :: 0 <= i < |pre| ==> pre[i] in Whitespace
    requires forall i :: 0 <= i < |post| ==> post[i] in Whitespace
    requires |x| > 0 && NoEdge(x, Whitespace)
    ensures Classify(ItemMarker + pre + x + post) == Item(x)
  {
    var body := ItemMarker + pre + x;
    assert ItemMarker + pre + x + post == body + post;
    RStripSuffix(body, post, Whitespace);
    assert body[|body| - 1] == x[|x| - 1];
    RStripNoop(body);
    assert body[..4] == ItemMarker;
    assert body[4..] == pre + x + "";
    StripSetPadded(pre, x, "", Whitespace);
  }

  /** With no current list (none opened yet, or the current one orphaned),
      an item line changes nothing that can be seen. */
  lemma ItemWithoutList(st: ParseState, x: string)
    requires st.Valid() && !st.cursor.Attached?
    requires |x| > 0 && NoEdge(x, Whitespace)
    ensures Step(st, ItemMarker + x) == st
  {
    ItemKind(x);
  }

  /** A scalar line followed by more lines. */
  lemma ScalarThen(st: ParseState, k: string, v: string, rest: seq<string>)
    requires st.Valid() && PlainKey(k) && PlainValue(v)
    ensures ParseLines(st, [k + ": " + v] + rest)
         == ParseLines(ParseState(st.data[k := Str(v)], if st.cursor == Attached(k) then Orphaned else st.cursor), rest)
  {
    ScalarLine(st, k, v);
    ParseLinesCons(st, k + ": " + v, rest);
  }

  /** A list key followed by more lines. */
  lemma ListKeyThen(st: ParseState, k: string, rest: seq<string>)
    requires st.Valid() && PlainKey(k)
    ensures ParseLines(st, [k + ":"] + rest) == ParseLines(ParseState(st.data[k := List([])], Attached(k)), rest)
  {
    ListKeyLine(st, k);
    ParseLinesCons(st, k + ":", rest);
  }

  /** An item line followed by more lines, with no current list. */
  lemma LostItemThen(st: ParseState, x: string, rest: seq<string>)
    requires st.Valid() && !st.cursor.Attached?
    requires |x| > 0 && NoEdge(x, Whitespace)
    ensures ParseLines(st, [ItemMarker + x] + rest) == ParseLines(st, rest)
  {
    ItemWithoutList(st, x);
    ParseLinesCons(st, ItemMarker + x, rest);
  }

  lemma ParseLinesCons(st: ParseState, line: string, rest: seq<string>)
    requires st.Valid()
    ensures ParseLines(st, [line] + rest) == ParseLines(Step(st, line), rest)
  {
    assert ([line] + rest)[1..] == rest;
  }

  /** The list-reference quirk: `k:` opens a list, `k: v` replaces it by a
      string, and a following item is lost instead of reaching any list. */
  lemma OrphanedItem(st: ParseState, k: string, v: string, x: string)
    requires st.Valid() && PlainKey(k) && PlainValue(v)
    requires |x| > 0 && NoEdge(x, Whitespace)
    ensures ParseLines(st, [k + ":"] + [k + ": " + v] + [ItemMarker + x])
         == ParseState(st.data[k := Str(v)], Orphaned)
  {
    var s1 := ParseState(st.data[k := List([])], Attached(k));
    var s2 := ParseState(s1.data[k := Str(v)], Orphaned);
    ListKeyLine(st, k);
    ScalarLine(s1, k, v);
    ItemWithoutList(s2, x);
    ThreeLines(st, k + ":", k + ": " + v, ItemMarker + x);
    Overwrite(st.data, k, List([]), Str(v));
  }

  lemma ThreeLines(st: ParseState, l1: string, l2: string, l3: string)
    requires st.Valid()
    ensures ParseLines(st, [l1] + [l2] + [l3]) == Step(Step(Step(st, l1), l2), l3)
  {
    assert [l1] + [l2] + [l3] == [l1] + ([l2] + [l3]);
    ParseLinesCons(st, l1, [l2] + [l3]);
    ParseLinesCons(Step(st, l1), l2, [l3]);
    ParseLinesOne(Step(Step(st, l1), l2), l3);
  }

  /** A repeated scalar key keeps the later value. */
  lemma DuplicateKey(st: ParseState, k: string, v1: string, v2: string)
    requires st.Valid() && PlainKey(k) && PlainValue(v1) && PlainValue(v2)
    ensures ParseLines(st, [k + ": " + v1] + [k + ": " + v2]).data == st.data[k := Str(v2)]
  {
    ScalarThen(st, k, v1, [k + ": " + v2]);
    var s1 := ParseState(st.data[k := Str(v1)], if st.cursor == Attached(k) then Orphaned else st.cursor);
    ScalarThen(s1, k, v2, []);
    assert [k + ": " + v2] + [] == [k + ": " + v2];
    Overwrite(st.data, k, Str(v1), Str(v2));
  }

  lemma Overwrite<K, V>(m: map<K, V>, k: K, a: V, b: V)
    ensures m[k := a][k := b] == m[k := b]
  {
  }

  /** An indented line that is not a list item once stripped on the right
      (`  topic: ...`, `    project: ...`, `  -x`, or the bare marker `  - `)
      changes nothing. */
  lemma IndentedLine(st: ParseState, line: string)
    requires st.Valid()
    requires |line| > 0 && line[0] == ' ' && !StartsWith(RStrip(line), ItemMarker)
    ensures Step(st, line) == st
  {
    var r := RStrip(line);
    assert r == line[..|r|];
    assert |r| > 0 ==> r[0] == ' ';
    assert Classify(line) == Ignored;
  }

  /** A line that is blank once stripped on the right, or a `#` comment,
      changes nothing. */
  lemma SkippedLine(st: ParseState, line: string)
    requires st.Valid()
    requires RStrip(line) == "" || (|line| > 0 && line[0] == '#')
    ensures Step(st, line) == st
  {
    var r := RStrip(line);
    if r != "" {
      assert line[0] !in Whitespace;
      assert r == line[..|r|];
      assert |r| > 0 && r[0] == '#';
    }
    assert Classify(line) == Ignored;
  }

  /** Reading `a + b` is reading `a`, then `b`. */
  lemma {:induction false} ParseLinesAppend(st: ParseState, a: seq<string>, b: seq<string>)
    requires st.Valid()
    ensures ParseLines(st, a + b) == ParseLines(ParseLines(st, a), b)
    decreases |a|
  {
    if |a| == 0 {
      assert a + b == b;
    } else {
      assert (a + b)[0] == a[0];
      assert (a + b)[1..] == a[1..] + b;
      ParseLinesAppend(Step(st, a[0]), a[1..], b);
    }
  }

  lemma ParseLinesOne(st: ParseState, line: string)
    requires st.Valid()
    ensures ParseLines(st, [line]) == Step(st, line)
  {
    assert [line][1..] == [];
  }
}

=== FILE: issue_monitor.dfy ===
/** The decision logic of scripts/issue_monitor.py: which open issues are
    addressed to the member, which of them are new questions, which comments
    are new replies after the member's last comment, and how the persisted
    state records what has been answered. The issue and comment listings are
    inputs; the clock reading is a parameter. */
module IssueMonitor {
  import opened Wrappers
  import opened Text

  /** The GitHub login the monitor answers for. */
  const MemberId: string := "kkkaka-oss"

  /** An open issue. `body` is `None` for GitHub's `null` body. */
  datatype Issue = Issue(number: int, title: string, body: Option<string>, author: string,
                         url: string, createdAt: string)

  datatype Comment = Comment(id: int, author: string, body: string, url: string, createdAt: string)

  /** A reported reply: the comment and the issue it was made on. */
  datatype Reply = Reply(issueNumber: int, issueTitle: string, commentId: int, author: string,
                         body: string, url: string, createdAt: string)

  /** The comments of each issue, by number; an issue whose comments could
      not be fetched has none. */
  type Threads = map<int, seq<Comment>>

  function CommentsOn(threads: Threads, n: int): seq<Comment> {
    if n in threads then threads[n] else []
  }

  // ------------------------------------------------------ addressed issues

  /** `issue.get('body', '') or ''`: a null body reads as empty. */
  function BodyText(i: Issue): string {
    i.body.GetOr("")
  }

  /** The issue names the member in its title (ignoring case) or mentions
      `@member` in its body (case-sensitively). */
  predicate Addressed(memberId: string, i: Issue) {
    Contains(Lower(i.title), Lower(memberId)) || Contains(BodyText(i), "@" + memberId)
  }

  /** `get_issues_for_member`: the addressed issues, in listing order. */
  function IssuesFor(memberId: string, issues: seq<Issue>): (r: seq<Issue>)
    ensures |r| <= |issues|
    ensures forall i :: 0 <= i < |r| ==> Addressed(memberId, r[i])
    decreases |issues|
  {
    if |issues| == 0 then []
    else if Addressed(memberId, issues[0]) then [issues[0]] + IssuesFor(memberId, issues[1..])
    else IssuesFor(memberId, issues[1..])
  }

  /** An issue is kept iff it is listed and addressed. */
  lemma {:induction false} IssuesForMember(memberId: string, issues: seq<Issue>, x: Issue)
    ensures x in IssuesFor(memberId, issues) <==> x in issues && Addressed(memberId, x)
    decreases |issues|
  {
    if |issues| > 0 {
      IssuesForMember(memberId, issues[1..], x);
      assert issues == [issues[0]] + issues[1..];
    }
  }

  /** Filtering a listing in two parts filters each part and keeps them in
      order, so the relative order of the listing is preserved. */
  lemma {:induction false} IssuesForAppend(memberId: string, a: seq<Issue>, b: seq<Issue>)
    ensures IssuesFor(memberId, a + b) == IssuesFor(memberId, a) + IssuesFor(memberId, b)
    decreases |a|
  {
    if |a| == 0 {
      assert a + b == b;
    } else {
      assert (a + b)[0] == a[0];
      assert (a + b)[1..] == a[1..] + b;
      IssuesForAppend(memberId, a[1..], b);
    }
  }

  // ------------------------------------------------------------ the state

  /** The persisted record of answered issues and handled comments. */
  datatype State = State(repliedIssues: seq<int>, repliedComments: seq<int>, lastCheck: Option<string>)

  /** What `load_state` starts from when no state file exists. */
  const DefaultState: State := State([], [], None)

  /** Appends `x` unless it is already there. */
  function AppendNew(xs: seq<int>, x: int): (r: seq<int>)
    ensures x in r
    ensures xs <= r && |r| <= |xs| + 1
    ensures forall y :: y in r <==> y in xs || y == x
    ensures x in xs ==> r == xs
  {
    if x in xs then xs else xs + [x]
  }

  predicate NoDuplicates(xs: seq<int>) {
    forall i, j :: 0 <= i < j < |xs| ==> xs[i] != xs[j]
  }

  /** `mark_issue_replied`, with `now` the clock reading. */
  function MarkIssueReplied(st: State, n: int, now: string): (r: State)
    ensures n in r.repliedIssues && st.repliedIssues <= r.repliedIssues
    ensures forall y :: y in r.repliedIssues <==> y in st.repliedIssues || y == n
    ensures r.repliedComments == st.repliedComments && r.lastCheck == Some(now)
  {
    st.(repliedIssues := AppendNew(st.repliedIssues, n), lastCheck := Some(now))
  }

  /** `mark_comment_replied`, with `now` the clock reading. */
  function MarkCommentReplied(st: State, id: int, now: string): (r: State)
    ensures id in r.repliedComments && st.repliedComments <= r.repliedComments
    ensures forall y :: y in r.repliedComments <==> y in st.repliedComments || y == id
    ensures r.repliedIssues == st.repliedIssues && r.lastCheck == Some(now)
  {
    st.(repliedComments := AppendNew(st.repliedComments, id), lastCheck := Some(now))
  }

  lemma AppendNewKeepsDistinct(xs: seq<int>, x: int)
    requires NoDuplicates(xs)
    ensures NoDuplicates(AppendNew(xs, x))
  {
  }

  /** Marking never introduces a duplicate into a list without one. */
  lemma MarkKeepsDistinct(st: State, n: int, id: int, now: string)
    requires NoDuplicates(st.repliedIssues) && NoDuplicates(st.repliedComments)
    ensures NoDuplicates(MarkIssueReplied(st, n, now).repliedIssues)
    ensures NoDuplicates(MarkCommentReplied(st, id, now).repliedComments)
  {
    AppendNewKeepsDistinct(st.repliedIssues, n);
    AppendNewKeepsDistinct(st.repliedComments, id);
  }

  /** Marking twice is marking once, at the later time. */
  lemma MarkIdempotent(st: State, n: int, t1: string, t2: string)
    ensures MarkIssueReplied(MarkIssueReplied(st, n, t1), n, t2) == MarkIssueReplied(st, n, t2)
    ensures MarkCommentReplied(MarkCommentReplied(st, n, t1), n, t2) == MarkCommentReplied(st, n, t2)
  {
  }

  // ------------------------------------------------------- new questions

  /** Some comment of the thread is the member's own. */
  predicate HasMyReply(cs: seq<Comment>) {
    exists k :: 0 <= k < |cs| && cs[k].author == MemberId
  }

  predicate IsNewQuestion(st: State, threads: Threads, i: Issue) {
    i.number !in st.repliedIssues && !HasMyReply(CommentsOn(threads, i.number))
  }

  function NewQuestionsAmong(st: State, threads: Threads, issues: seq<Issue>): (r: seq<Issue>)
    ensures |r| <= |issues|
    ensures forall k :: 0 <= k < |r| ==> IsNewQuestion(st, threads, r[k])
    decreases |issues|
  {
    if |issues| == 0 then []
    else if IsNewQuestion(st, threads, issues[0]) then [issues[0]] + NewQuestionsAmong(st, threads, issues[1..])
    else NewQuestionsAmong(st, threads, issues[1..])
  }

  /** `check_new_questions`: the addressed issues not yet answered, neither
      through the state nor by a comment of the member, in listing order. */
  function CheckNewQuestions(st: State, issues: seq<Issue>, threads: Threads): seq<Issue> {
    NewQuestionsAmong(st, threads, IssuesFor(MemberId, issues))
  }

  lemma {:induction false} NewQuestionsAmongMember(st: State, threads: Threads, issues: seq<Issue>, x: Issue)
    ensures x in NewQuestionsAmong(st, threads, issues) <==> x in issues && IsNewQuestion(st, threads, x)
    decreases |issues|
  {
    if |issues| > 0 {
      NewQuestionsAmongMember(st, threads, issues[1..], x);
      assert issues == [issues[0]] + issues[1..];
    }
  }

  /** An issue is reported iff it is listed, addressed to the member, not in
      the answered list and carries no comment of the member. */
  lemma NewQuestionsExactly(st: State, issues: seq<Issue>, threads: Threads, x: Issue)
    ensures x in CheckNewQuestions(st, issues, threads)
        <==> x in issues && Addressed(MemberId, x)
             && x.number !in st.repliedIssues && !HasMyReply(CommentsOn(threads, x.number))
  {
    NewQuestionsAmongMember(st, threads, IssuesFor(MemberId, issues), x);
    IssuesForMember(MemberId, issues, x);
  }

  lemma {:induction false} NewQuestionsAmongAppend(st: State, threads: Threads, a: seq<Issue>, b: seq<Issue>)
    ensures NewQuestionsAmong(st, threads, a + b) == NewQuestionsAmong(st, threads, a) + NewQuestionsAmong(st, threads, b)
    decreases |a|
  {
    if |a| == 0 {
      assert a + b == b;
    } else {
      assert (a + b)[0] == a[0];
      assert (a + b)[1..] == a[1..] + b;
      NewQuestionsAmongAppend(st, threads, a[1..], b);
    }
  }

  /** The report keeps the listing's order: the questions of a listing in two
      parts are those of the first part followed by those of the second. */
  lemma NewQuestionsInOrder(st: State, a: seq<Issue>, b: seq<Issue>, threads: Threads)
    ensures CheckNewQuestions(st, a + b, threads) == CheckNewQuestions(st, a, threads) + CheckNewQuestions(st, b, threads)
  {
    IssuesForAppend(MemberId, a, b);
    NewQuestionsAmongAppend(st, threads, IssuesFor(MemberId, a), IssuesFor(MemberId, b));
  }

  // --------------------------------------------------------- new replies

  /** The creation times of the member's own comments, in thread order. */
  function MyCommentTimes(cs: seq<Comment>): (r: seq<string>)
    ensures |r| == 0 <==> !HasMyReply(cs)
    ensures forall t :: t in r <==> exists k :: 0 <= k < |cs| && cs[k].author == MemberId && cs[k].createdAt == t
    decreases |cs|
  {
    if |cs| == 0 then []
    else
      var rest := MyCommentTimes(cs[1..]);
      assert forall k :: 1 <= k < |cs| ==> cs[k] == cs[1..][k - 1];
      assert forall k :: 0 <= k < |cs[1..]| ==> cs[1..][k] == cs[k + 1];
      if cs[0].author == MemberId then [cs[0].createdAt] + rest else rest
  }

  /** Python's `max` of strings: a greatest element. */
  function MaxString(ts: seq<string>): (r: string)
    requires |ts| > 0
    ensures r in ts
    ensures forall t :: t in ts ==> LexLessEq(t, r)
    decreases |ts|
  {
    if |ts| == 1 then ts[0]
    else
      var m := MaxString(ts[1..]);
      assert forall t :: t in ts ==> t == ts[0] || t in ts[1..];
      if LexLess(ts[0], m) then m
      else
        LexNotLess(ts[0], m);
        MaxAbove(ts, m);
        ts[0]
  }

  lemma MaxAbove(ts: seq<string>, m: string)
    requires |ts| > 1 && LexLessEq(m, ts[0])
    requires forall t :: t in ts[1..] ==> LexLessEq(t, m)
    ensures forall t :: t in ts ==> LexLessEq(t, ts[0])
  {
    forall t | t in ts ensures LexLessEq(t, ts[0]) {
      if t != ts[0] {
        assert t in ts[1..];
        LexLessEqTransitive(t, m, ts[0]);
      }
    }
  }

  function ReplyOf(i: Issue, c: Comment): Reply {
    Reply(i.number, i.title, c.id, c.author, c.body, c.url, c.createdAt)
  }

  /** The comment is by someone else, strictly later than `last` and not yet
      handled. */
  predicate Fresh(st: State, last: string, c: Comment) {
    c.author != MemberId && LexLess(last, c.createdAt) && c.id !in st.repliedComments
  }

  function FreshAfter(st: State, i: Issue, last: string, cs: seq<Comment>): (r: seq<Reply>)
    ensures |r| <= |cs|
    decreases |cs|
  {
    if |cs| == 0 then []
    else if Fresh(st, last, cs[0]) then [ReplyOf(i, cs[0])] + FreshAfter(st, i, last, cs[1..])
    else FreshAfter(st, i, last, cs[1..])
  }

  /** The new replies on one issue: none unless the member commented, and
      then the other authors' unhandled comments newer than the member's
      latest one. */
  function RepliesOn(st: State, i: Issue, cs: seq<Comment>): seq<Reply> {
    var mine := MyCommentTimes(cs);
    if |mine| == 0 then [] else FreshAfter(st, i, MaxString(mine), cs)
  }

  function RepliesAmong(st: State, threads: Threads, issues: seq<Issue>): seq<Reply>
    decreases |issues|
  {
    if |issues| == 0 then []
    else RepliesOn(st, issues[0], CommentsOn(threads, issues[0].number)) + RepliesAmong(st, threads, issues[1..])
  }

  /** `check_new_replies`: the new replies on every addressed issue, issue by
      issue in listing order. */
  function CheckNewReplies(st: State, issues: seq<Issue>, threads: Threads): seq<Reply> {
    RepliesAmong(st, threads, IssuesFor(MemberId, issues))
  }

  /** A thread without a comment of the member yields nothing. */
  lemma NoRepliesWithoutMine(st: State, i: Issue, cs: seq<Comment>)
    requires !HasMyReply(cs)
    ensures RepliesOn(st, i, cs) == []
  {
  }

  lemma {:induction false} FreshAfterMember(st: State, i: Issue, last: string, cs: seq<Comment>, c: Comment)
    ensures ReplyOf(i, c) in FreshAfter(st, i, last, cs) <==> c in cs && Fresh(st, last, c)
    decreases |cs|
  {
    if |cs| > 0 {
      FreshAfterMember(st, i, last, cs[1..], c);
      assert cs == [cs[0]] + cs[1..];
    }
  }

  /** Strictly after the member's latest comment is strictly after each of
      the member's comments. */
  predicate AfterAllMine(cs: seq<Comment>, t: string) {
    forall k :: 0 <= k < |cs| && cs[k].author == MemberId ==> LexLess(cs[k].createdAt, t)
  }

  lemma AfterMaxIsAfterAll(cs: seq<Comment>, t: string)
    requires HasMyReply(cs)
    ensures LexLess(MaxString(MyCommentTimes(cs)), t) <==> AfterAllMine(cs, t)
  {
    var mine := MyCommentTimes(cs);
    var m := MaxString(mine);
    if LexLess(m, t) {
      forall k | 0 <= k < |cs| && cs[k].author == MemberId ensures LexLess(cs[k].createdAt, t) {
        assert cs[k].createdAt in mine;
        if cs[k].createdAt != m {
          LexTransitive(cs[k].createdAt, m, t);
        }
      }
    } else {
      var k :| 0 <= k < |cs| && cs[k].author == MemberId && cs[k].createdAt == m;
      assert !LexLess(cs[k].createdAt, t);
    }
  }

  /** A comment of a thread is reported iff the member commented on the
      thread, the comment is by someone else, it is strictly later than every
      comment of the member (an equal time is not later), and its id is not
      among the handled comments. */
  lemma RepliesOnExactly(st: State, i: Issue, cs: seq<Comment>, c: Comment)
    requires c in cs
    ensures ReplyOf(i, c) in RepliesOn(st, i, cs)
        <==> HasMyReply(cs) && c.author != MemberId && AfterAllMine(cs, c.createdAt)
             && c.id !in st.repliedComments
  {
    if HasMyReply(cs) {
      FreshAfterMember(st, i, MaxString(MyCommentTimes(cs)), cs, c);
      AfterMaxIsAfterAll(cs, c.createdAt);
    }
  }

  /** Every reported reply comes from a comment on an addressed issue that
      satisfies the conditions above. */
  lemma {:induction false} RepliesAmongSound(st: State, threads: Threads, issues: seq<Issue>, r: Reply)
    requires r in RepliesAmong(st, threads, issues)
    ensures exists i, c :: i in issues && c in CommentsOn(threads, i.number) && r == ReplyOf(i, c)
              && HasMyReply(CommentsOn(threads, i.number)) && c.author != MemberId
              && AfterAllMine(CommentsOn(threads, i.number), c.createdAt) && c.id !in st.repliedComments
    decreases |issues|
  {
    var i := issues[0];
    var cs := CommentsOn(threads, i.number);
    if r in RepliesOn(st, i, cs) {
      var mine := MyCommentTimes(cs);
      FreshAfterSource(st, i, MaxString(mine), cs, r);
      var c :| c in cs && r == ReplyOf(i, c);
      RepliesOnExactly(st, i, cs, c);
    } else {
      RepliesAmongSound(st, threads, issues[1..], r);
      var i', c :| i' in issues[1..] && c in CommentsOn(threads, i'.number) && r == ReplyOf(i', c)
              && HasMyReply(CommentsOn(threads, i'.number)) && c.author != MemberId
              && AfterAllMine(CommentsOn(threads, i'.number), c.createdAt) && c.id !in st.repliedComments;
      assert i' in issues;
    }
  }

  /** Conversely, every such comment on a listed issue is reported. */
  lemma {:induction false} RepliesAmongComplete(st: State, threads: Threads, issues: seq<Issue>, i: Issue, c: Comment)
    requires i in issues && c in CommentsOn(threads, i.number)
    requires HasMyReply(CommentsOn(threads, i.number)) && c.author != MemberId
    requires AfterAllMine(CommentsOn(threads, i.number), c.createdAt) && c.id !in st.repliedComments
    ensures ReplyOf(i, c) in RepliesAmong(st, threads, issues)
    decreases |issues|
  {
    if issues[0] == i {
      RepliesOnExactly(st, i, CommentsOn(threads, i.number), c);
    } else {
      assert i in issues[1..];
      RepliesAmongComplete(st, threads, issues[1..], i, c);
    }
  }

  /** A comment made at the very time of the member's own comment is not
      reported: the comparison is strict. */
  lemma SameTimeNotReported(st: State, i: Issue, cs: seq<Comment>, mine: Comment, c: Comment)
    requires mine in cs && c in cs && mine.author == MemberId && c.createdAt == mine.createdAt
    ensures ReplyOf(i, c) !in RepliesOn(st, i, cs)
  {
    RepliesOnExactly(st, i, cs, c);
    LexIrreflexive(c.createdAt);
    var k :| 0 <= k < |cs| && cs[k] == mine;
  }

  lemma {:induction false} FreshAfterSource(st: State, i: Issue, last: string, cs: seq<Comment>, r: Reply)
    requires r in FreshAfter(st, i, last, cs)
    ensures exists c :: c in cs && r == ReplyOf(i, c)
    decreases |cs|
  {
    if r != ReplyOf(i, cs[0]) {
      FreshAfterSource(st, i, last, cs[1..], r);
      var c :| c in cs[1..] && r == ReplyOf(i, c);
      assert c in cs;
    }
  }

  // ------------------------------------------------------------ replying

  /** The outcome of posting a comment. */
  datatype PostResult = Posted(url: string) | PostFailed(error: string)

  /** `post_comment` given the server's answer: success exactly for status
      201 (Created). */
  function PostComment(status: int, htmlUrl: string, text: string): (r: PostResult)
    ensures r.Posted? <==> status == 201
    ensures r.Posted? ==> r.url == htmlUrl
    ensures r.PostFailed? ==> r.error == text
  {
    if status == 201 then Posted(htmlUrl) else PostFailed(text)
  }

  /** `reply_to_issue`: the issue is marked answered exactly when the post
      succeeded; a failed post leaves the state as it was. */
  function ReplyToIssue(st: State, n: int, status: int, htmlUrl: string, text: string, now: string): (r: (PostResult, State))
    ensures r.0 == PostComment(status, htmlUrl, text)
    ensures r.0.Posted? ==> r.1 == MarkIssueReplied(st, n, now)
    ensures r.0.PostFailed? ==> r.1 == st
  {
    var res := PostComment(status, htmlUrl, text);
    if res.Posted? then (res, MarkIssueReplied(st, n, now)) else (res, st)
  }

  /** Once a reply to an issue has been posted, the issue is no longer
      reported as a new question; after a failed post, the report is what it
      was. */
  lemma AnsweredNotAskedAgain(st: State, issues: seq<Issue>, threads: Threads, x: Issue,
                              status: int, htmlUrl: string, text: string, now: string)
    ensures var r := ReplyToIssue(st, x.number, status, htmlUrl, text, now);
      && (status == 201 ==> x !in CheckNewQuestions(r.1, issues, threads))
      && (status != 201 ==> CheckNewQuestions(r.1, issues, threads) == CheckNewQuestions(st, issues, threads))
  {
    var r := ReplyToIssue(st, x.number, status, htmlUrl, text, now);
    NewQuestionsExactly(r.1, issues, threads, x);
  }
}

=== FILE: log_content.dfy ===
/** The front-matter half of `create_log_content` (scripts/github_sync.py):
    the metadata block written at the top of every pushed log, and the proof
    that `parse_front_matter` reads back what it wrote. */
module LogContent {
  import opened Wrappers
  import opened Text
  import opened FrontMatter

  /** One entry of the `done` / `in_progress` / `tomorrow` lists; an absent
      `project` is "" and absent `blockers` is []. */
  datatype Task = Task(content: string, project: string, blockers: seq<string>)

  /** The `ai_learning` entry; an absent field is "". */
  datatype AiLearning = AiLearning(topic: string, insight: string, appliedTo: string)

  /** A non-empty `structured_data` dictionary. Absent lists are empty. */
  datatype Structured = Structured(
    done: seq<Task>,
    inProgress: seq<Task>,
    tomorrow: seq<Task>,
    aiLearning: Option<AiLearning>)

  /** The six scalar fields every log opens with. `syncedAt` is the clock
      reading the source takes when it builds the block. */
  datatype Header = Header(memberId: string, memberName: string, team: string, date: string, syncedAt: string)

  const Source: string := "claude-skill"
  const SectionBanner: string := "# === A2A Structured Data ==="
  const Rule: string := "━━━━━━━━━━━━━━━━━━━━━━━━━━━━"

  const AiKey: string := "ai_learning"
  const BlockersKey: string := "blockers"

  datatype Section = Done | InProgress | Tomorrow

  function SectionKey(sec: Section): string {
    match sec
    case Done => "tasks_done"
    case InProgress => "tasks_in_progress"
    case Tomorrow => "tasks_tomorrow"
  }

  // ------------------------------------------------------------ the writer

  /** Python's `str(list)` for a list of plain strings: `['a', 'b']`. */
  function PyRepr(xs: seq<string>): string {
    "[" + ReprItems(xs) + "]"
  }

  function ReprItems(xs: seq<string>): string
    decreases |xs|
  {
    if |xs| == 0 then ""
    else if |xs| == 1 then "'" + xs[0] + "'"
    else "'" + xs[0] + "', " + ReprItems(xs[1..])
  }

  /** `key: value` as the f-strings of the source write it. */
  function PairLine(key: string, value: string): string {
    key + ": " + value
  }

  /** One `key: value` line per key, in order. */
  function PairLines(keys: seq<string>, vals: seq<string>): (r: seq<string>)
    requires |keys| == |vals|
    ensures |r| == |keys|
    ensures forall i :: 0 <= i < |keys| ==> r[i] == PairLine(keys[i], vals[i])
    decreases |keys|
  {
    if |keys| == 0 then [] else [PairLine(keys[0], vals[0])] + PairLines(keys[1..], vals[1..])
  }

  const HeaderKeys: seq<string> := ["member_id", "member_name", "date", "synced_at", "team", "source"]

  function HeaderValues(h: Header): seq<string> {
    [h.memberId, h.memberName, h.date, h.syncedAt, h.team, Source]
  }

  /** The six header lines, in the order the source lists them. */
  function HeaderLines(h: Header): seq<string> {
    PairLines(HeaderKeys, HeaderValues(h))
  }

  /** The item text the parser keeps for a task: `content: "..."`. */
  function ItemText(t: Task): string {
    "content: \"" + t.content + "\""
  }

  /** The indented line under a task: its project for done tasks, its
      blockers for in-progress tasks, when present. */
  function DetailLines(t: Task, sec: Section): seq<string> {
    match sec
    case Done => if t.project != "" then ["    project: " + t.project] else []
    case InProgress => if |t.blockers| > 0 then ["    blockers: " + PyRepr(t.blockers)] else []
    case Tomorrow => []
  }

  function TaskLines(ts: seq<Task>, sec: Section): seq<string>
    decreases |ts|
  {
    if |ts| == 0 then []
    else [ItemMarker + ItemText(ts[0])] + DetailLines(ts[0], sec) + TaskLines(ts[1..], sec)
  }

  /** A task section is written only when its list is non-empty. */
  function SectionBlock(ts: seq<Task>, sec: Section): seq<string> {
    if |ts| == 0 then [] else [SectionKey(sec) + ":"] + TaskLines(ts, sec)
  }

  /** `ai_learning:` followed by its indented fields, each written only when
      non-empty. */
  function AiLines(al: AiLearning): seq<string> {
    [AiKey + ":"] + AiDetail(al)
  }

  /** The `ai_learning` block is written only when the entry is present. */
  function AiBlock(ai: Option<AiLearning>): seq<string> {
    match ai
    case None => []
    case Some(al) => AiLines(al)
  }

  function AiDetail(al: AiLearning): seq<string> {
    (if al.topic != "" then ["  topic: \"" + al.topic + "\""] else [])
    + (if al.insight != "" then ["  insight: \"" + al.insight + "\""] else [])
    + (if al.appliedTo != "" then ["  applied_to: \"" + al.appliedTo + "\""] else [])
  }

  /** The blockers of the given tasks, concatenated in task order. */
  function AllBlockers(ts: seq<Task>): seq<string>
    decreases |ts|
  {
    if |ts| == 0 then [] else ts[0].blockers + AllBlockers(ts[1..])
  }

  function BlockersText(sd: Structured): string {
    var all := AllBlockers(sd.inProgress);
    if |all| > 0 then PyRepr(all) else "[]"
  }

  function StructuredLines(sd: Structured): seq<string> {
    ["", SectionBanner]
    + SectionBlock(sd.done, Done)
    + SectionBlock(sd.inProgress, InProgress)
    + SectionBlock(sd.tomorrow, Tomorrow)
    + AiBlock(sd.aiLearning)
    + [PairLine(BlockersKey, BlockersText(sd))]
  }

  /** The lines of the block, delimiters included. `sd` is `None` when the
      caller passed no (or an empty) `structured_data`. */
  function FrontMatterLines(h: Header, sd: Option<Structured>): seq<string> {
    [Delimiter] + BlockLines(h, sd) + [Delimiter]
  }

  /** The lines between the two delimiters. */
  function BlockLines(h: Header, sd: Option<Structured>): seq<string> {
    HeaderLines(h) + (match sd case None => [] case Some(s) => StructuredLines(s))
  }

  /** The whole document. `dateTitle` and `weekday` are what the source
      derives from `date` with the calendar library (the raw date and "" when
      it does not parse), and `clock` is the `HH:MM` of the footer. */
  function CreateLogContent(h: Header, body: string, sd: Option<Structured>,
                            dateTitle: string, weekday: string, clock: string): string {
    Join(FrontMatterLines(h, sd), '\n') + Trailer(h.memberName, body, dateTitle, weekday, clock)
  }

  /** Everything after the closing delimiter: title, rules, body and footer. */
  function Trailer(name: string, body: string, dateTitle: string, weekday: string, clock: string): string {
    "\n\n# " + name + " | " + dateTitle + " " + weekday
    + "\n\n" + Rule + "\n\n" + body + "\n\n" + Rule
    + "\n\n_synced at " + clock + "_\n"
  }

  // ------------------------------------------------------------- layout

  /** The block opens and closes with `---`; the six header lines follow the
      opening delimiter in the source's order; without structured data nothing
      else is written; with it, a blank line and the banner come next and the
      blockers summary is the last line before the closing delimiter. */
  lemma FrontMatterLayout(h: Header, sd: Option<Structured>)
    ensures var r := FrontMatterLines(h, sd);
      && |r| >= 8 && r[0] == Delimiter && r[|r| - 1] == Delimiter
      && r[1] == PairLine("member_id", h.memberId) && r[2] == PairLine("member_name", h.memberName)
      && r[3] == PairLine("date", h.date) && r[4] == PairLine("synced_at", h.syncedAt)
      && r[5] == PairLine("team", h.team) && r[6] == PairLine("source", Source)
      && (sd.None? ==> |r| == 8)
      && (sd.Some? ==> |r| >= 11 && r[7] == "" && r[8] == SectionBanner
                       && r[|r| - 2] == PairLine(BlockersKey, BlockersText(sd.value)))
  {
    var H := HeaderLines(h);
    assert |H| == 6;
    match sd
    case None =>
      assert FrontMatterLines(h, sd) == [Delimiter] + H + [Delimiter];
    case Some(s) =>
      StructuredLayout(s);
      WrappedAt(H, StructuredLines(s));
  }

  lemma WrappedAt(H: seq<string>, S: seq<string>)
    requires |H| == 6 && |S| >= 3
    ensures var r := [Delimiter] + (H + S) + [Delimiter];
      |r| == |S| + 8 && r[7] == S[0] && r[8] == S[1] && r[|r| - 2] == S[|S| - 1]
      && forall i :: 0 <= i < 6 ==> r[i + 1] == H[i]
  {
  }

  lemma StructuredLayout(s: Structured)
    ensures var S := StructuredLines(s);
      |S| >= 3 && S[0] == "" && S[1] == SectionBanner
      && S[|S| - 1] == PairLine(BlockersKey, BlockersText(s))
  {
  }

  /** The blockers summary of a concatenation is the concatenation of the
      summaries: task order is kept. */
  lemma {:induction false} AllBlockersAppend(a: seq<Task>, b: seq<Task>)
    ensures AllBlockers(a + b) == AllBlockers(a) + AllBlockers(b)
    decreases |a|
  {
    if |a| == 0 {
      assert a + b == b;
    } else {
      var c := a + b;
      assert c[0] == a[0] && c[1..] == a[1..] + b;
      calc {
        AllBlockers(c);
        a[0].blockers + AllBlockers(a[1..] + b);
        { AllBlockersAppend(a[1..], b); }
        a[0].blockers + (AllBlockers(a[1..]) + AllBlockers(b));
        (a[0].blockers + AllBlockers(a[1..])) + AllBlockers(b);
      }
    }
  }

  /** A blocker is in the summary iff some in-progress task lists it. */
  lemma {:induction false} AllBlockersMember(ts: seq<Task>, x: string)
    ensures x in AllBlockers(ts) <==> exists i :: 0 <= i < |ts| && x in ts[i].blockers
    decreases |ts|
  {
    if |ts| > 0 {
      AllBlockersMember(ts[1..], x);
      if x in AllBlockers(ts[1..]) {
        var i :| 0 <= i < |ts[1..]| && x in ts[1..][i].blockers;
        assert x in ts[i + 1].blockers;
      }
      if exists i :: 0 <= i < |ts| && x in ts[i].blockers {
        var i :| 0 <= i < |ts| && x in ts[i].blockers;
        if i > 0 {
          assert x in ts[1..][i - 1].blockers;
        }
      }
    }
  }

  // ----------------------------------------------- what the reader gets back

  /** The mapping the reader is expected to produce: every header key with its
      value; each written task section as the list of its `content: "..."`
      items (project and blockers lines are indented and dropped);
      `ai_learning` as an empty list (its fields are indented and dropped);
      and the blockers summary as a string. */
  function Decoded(h: Header, sd: Option<Structured>): Data {
    match sd
    case None => HeaderMap(h)
    case Some(s) => StructuredMap(HeaderMap(h), s)
  }

  function HeaderMap(h: Header): Data {
    map["member_id" := Str(h.memberId), "member_name" := Str(h.memberName),
        "date" := Str(h.date), "synced_at" := Str(h.syncedAt),
        "team" := Str(h.team), "source" := Str(Source)]
  }

  function StructuredMap(d: Data, s: Structured): Data {
    var d1 := WithSection(d, s.done, Done);
    var d2 := WithSection(d1, s.inProgress, InProgress);
    var d3 := WithSection(d2, s.tomorrow, Tomorrow);
    var d4 := if s.aiLearning.Some? then d3[AiKey := List([])] else d3;
    d4[BlockersKey := Str(BlockersText(s))]
  }

  function Items(ts: seq<Task>): (r: seq<string>)
    ensures |r| == |ts|
    ensures forall i :: 0 <= i < |ts| ==> r[i] == ItemText(ts[i])
    decreases |ts|
  {
    if |ts| == 0 then [] else [ItemText(ts[0])] + Items(ts[1..])
  }

  function WithSection(d: Data, ts: seq<Task>, sec: Section): Data {
    if |ts| == 0 then d else d[SectionKey(sec) := List(Items(ts))]
  }

  /** Header values the block can carry unchanged: non-empty, on one line,
      free of `---`, and with no whitespace or quote character at either end. */
  predicate HeaderValue(v: string) {
    PlainValue(v) && Inline(v)
  }

  /** Text that stays on its line and cannot close the block early. */
  predicate Inline(s: string) {
    '\n' !in s && !Contains(s, Delimiter)
  }

  predicate WellFormedHeader(h: Header) {
    HeaderValue(h.memberId) && HeaderValue(h.memberName) && HeaderValue(h.team)
    && HeaderValue(h.date) && HeaderValue(h.syncedAt)
  }

  predicate TaskInline(t: Task) {
    Inline(t.content) && Inline(t.project) && forall i :: 0 <= i < |t.blockers| ==> Inline(t.blockers[i])
  }

  predicate WellFormedStructured(sd: Structured) {
    && (forall i :: 0 <= i < |sd.done| ==> TaskInline(sd.done[i]))
    && (forall i :: 0 <= i < |sd.inProgress| ==> TaskInline(sd.inProgress[i]))
    && (forall i :: 0 <= i < |sd.tomorrow| ==> TaskInline(sd.tomorrow[i]))
    && (sd.aiLearning.Some? ==>
          Inline(sd.aiLearning.value.topic) && Inline(sd.aiLearning.value.insight)
          && Inline(sd.aiLearning.value.appliedTo))
  }
}

=== FILE: paths.dfy ===
/** Where a log lives in the shared repository (`get_file_path`) and how its
    path is escaped for the contents API (`encode_path`), both in
    scripts/github_sync.py. */
module Paths {
  import opened Wrappers
  import opened Text

  /** The three teams and their directory names. */
  const TeamDirs: map<string, string> := map[
    "china" := "中国团队 china-team",
    "middle_east" := "中东团队 middle-east",
    "best_allies" := "最佳外援 best-allies"]

  const MembersRoot: string := "成员日志 members"
  const LogSuffix: string := "_log.md"

  datatype PathError = InvalidTeam(team: string)

  /** `成员日志 members/<team dir>/<member>/<date>_log.md`, or the error the
      source raises for an unknown team. */
  function GetFilePath(memberId: string, team: string, date: string): (r: Result<string, PathError>)
    ensures r.Success? <==> team in TeamDirs
    ensures r.Failure? ==> r.error == InvalidTeam(team)
  {
    if team in TeamDirs then
      Success(MembersRoot + "/" + TeamDirs[team] + "/" + memberId + "/" + FileName(date))
    else
      Failure(InvalidTeam(team))
  }

  /** `<date>_log.md` */
  function FileName(date: string): string {
    date + LogSuffix
  }

  /** Four slash-free pieces joined by `/` split back into those pieces. */
  lemma SplitFour(a: string, b: string, c: string, d: string)
    requires '/' !in a && '/' !in b && '/' !in c && '/' !in d
    ensures Split(a + "/" + b + "/" + c + "/" + d, '/') == [a, b, c, d]
  {
    JoinFour(a, b, c, d, '/');
    SplitJoin([a, b, c, d], '/');
  }

  lemma JoinFour(a: string, b: string, c: string, d: string, sep: char)
    ensures Join([a, b, c, d], sep) == a + [sep] + b + [sep] + c + [sep] + d
  {
    var xs := [a, b, c, d];
    assert xs[1..][1..][1..] == [d];
    assert Join(xs[1..][1..], sep) == c + [sep] + d;
    assert Join(xs[1..], sep) == b + [sep] + (c + [sep] + d);
    assert Join(xs, sep) == a + [sep] + (b + [sep] + (c + [sep] + d));
  }

  lemma TeamDirsSlashFree()
    ensures '/' !in MembersRoot
    ensures forall t :: t in TeamDirs ==> '/' !in TeamDirs[t] && |TeamDirs[t]| > 0
  {
  }

  /** For a slash-free member id and date, the path has exactly four
      segments: the members root, the team's directory, the member id and the
      file name; and removing `_log.md` from the file name gives the date back
      when the date holds no underscore. */
  lemma FilePathSegments(memberId: string, team: string, date: string)
    requires team in TeamDirs && '/' !in memberId && '/' !in date
    ensures var segs := Split(GetFilePath(memberId, team, date).value, '/');
      && segs == [MembersRoot, TeamDirs[team], memberId, FileName(date)]
      && ('_' !in date ==> RemoveAll(segs[3], LogSuffix) == date)
  {
    TeamDirsSlashFree();
    FileNameSlashFree(date);
    SplitFour(MembersRoot, TeamDirs[team], memberId, FileName(date));
    if '_' !in date {
      RemoveAllSuffix(date, LogSuffix);
    }
  }

  lemma FileNameSlashFree(date: string)
    requires '/' !in date
    ensures '/' !in FileName(date)
  {
  }

  // ------------------------------------------------------- percent-encoding

  type Byte = b: int | 0 <= b < 256

  /** The characters `quote(..., safe='')` never escapes. */
  predicate Unreserved(c: char) {
    ('A' <= c <= 'Z') || ('a' <= c <= 'z') || ('0' <= c <= '9')
    || c == '_' || c == '.' || c == '-' || c == '~'
  }

  /** The UTF-8 encoding of one Unicode scalar value. */
  function Utf8(c: char): (r: seq<Byte>)
    ensures 1 <= |r| <= 4
  {
    var cp := c as int;
    if cp < 0x80 then [cp]
    else if cp < 0x800 then [0xC0 + cp / 64, 0x80 + cp % 64]
    else if cp < 0x10000 then [0xE0 + cp / 4096, 0x80 + (cp / 64) % 64, 0x80 + cp % 64]
    else [0xF0 + cp / 262144, 0x80 + (cp / 4096) % 64, 0x80 + (cp / 64) % 64, 0x80 + cp % 64]
  }

  function Utf8Encode(s: string): seq<Byte>
    decreases |s|
  {
    if |s| == 0 then [] else Utf8(s[0]) + Utf8Encode(s[1..])
  }

  const HexDigits: string := "0123456789ABCDEF"

  /** `%XY` with upper-case hex digits. */
  function Escape(b: Byte): (r: string)
    ensures |r| == 3 && r[0] == '%'
  {
    ['%', HexDigits[b / 16], HexDigits[b % 16]]
  }

  function EscapeAll(bs: seq<Byte>): (r: string)
    ensures |r| == 3 * |bs|
    decreases |bs|
  {
    if |bs| == 0 then [] else Escape(bs[0]) + EscapeAll(bs[1..])
  }

  function QuoteChar(c: char): string {
    if Unreserved(c) then [c] else EscapeAll(Utf8(c))
  }

  /** `urllib.parse.quote(s, safe='')`: unreserved characters are kept, every
      other character becomes the `%XY` escapes of its UTF-8 bytes. The result
      never holds a `/`. */
  function Quote(s: string): (r: string)
    ensures '/' !in r
    ensures |r| >= |s|
    decreases |s|
  {
    if |s| == 0 then ""
    else
      var q := QuoteChar(s[0]);
      QuoteCharSlashFree(s[0]);
      q + Quote(s[1..])
  }

  lemma QuoteCharSlashFree(c: char)
    ensures '/' !in QuoteChar(c) && |QuoteChar(c)| >= 1
  {
    if !Unreserved(c) {
      EscapeAllChars(Utf8(c));
    }
  }

  predicate HexChar(c: char) {
    c in HexDigits
  }

  lemma {:induction false} EscapeAllChars(bs: seq<Byte>)
    ensures forall i :: 0 <= i < |EscapeAll(bs)| ==> EscapeAll(bs)[i] == '%' || HexChar(EscapeAll(bs)[i])
    decreases |bs|
  {
    if |bs| > 0 {
      EscapeAllChars(bs[1..]);
      var e := Escape(bs[0]);
      assert HexChar(e[1]) && HexChar(e[2]);
      assert EscapeAll(bs) == e + EscapeAll(bs[1..]);
    }
  }

  /** `/`.join of the quoted `/`-separated segments. */
  function EncodePath(path: string): string {
    Join(QuoteAll(Split(path, '/')), '/')
  }

  function QuoteAll(segs: seq<string>): (r: seq<string>)
    ensures |r| == |segs|
    ensures forall i :: 0 <= i < |segs| ==> r[i] == Quote(segs[i])
    decreases |segs|
  {
    if |segs| == 0 then [] else [Quote(segs[0])] + QuoteAll(segs[1..])
  }

  /** The encoded path has the same number of `/`-separated segments as the
      original, and each is the quoted original segment. */
  lemma EncodePathSegments(path: string)
    ensures Split(EncodePath(path), '/') == QuoteAll(Split(path, '/'))
    ensures |Split(EncodePath(path), '/')| == |Split(path, '/')|
  {
    var q := QuoteAll(Split(path, '/'));
    assert forall i :: 0 <= i < |q| ==> '/' !in q[i];
    SplitJoin(q, '/');
  }

  // ------------------------------------------------------- decoding back

  function HexValue(c: char): nat
    requires HexChar(c)
  {
    if '0' <= c <= '9' then c as int - '0' as int else c as int - 'A' as int + 10
  }

  /** Reads a percent-encoded string back into bytes: unreserved characters
      stand for their own (ASCII) code, `%XY` for the byte `XY`; anything else
      is malformed. */
  function PercentDecode(s: string): Option<seq<Byte>>
    decreases |s|
  {
    if |s| == 0 then Some([])
    else if s[0] == '%' then
      if |s| >= 3 && HexChar(s[1]) && HexChar(s[2]) then
        Prepend([16 * HexValue(s[1]) + HexValue(s[2])], PercentDecode(s[3..]))
      else None
    else if Unreserved(s[0]) then Prepend([s[0] as int], PercentDecode(s[1..]))
    else None
  }

  /** `bs` in front of a decoded result; malformed stays malformed. */
  function Prepend(bs: seq<Byte>, o: Option<seq<Byte>>): Option<seq<Byte>> {
    match o
    case None => None
    case Some(r) => Some(bs + r)
  }

  lemma PrependTwice(a: seq<Byte>, b: seq<Byte>, o: Option<seq<Byte>>)
    ensures Prepend(a, Prepend(b, o)) == Prepend(a + b, o)
  {
    if o.Some? {
      assert a + (b + o.value) == a + b + o.value;
    }
  }

  lemma HexDigitValue(n: nat)
    requires n < 16
    ensures HexChar(HexDigits[n]) && HexValue(HexDigits[n]) == n
  {
  }

  lemma DecodeEscape(s: string)
    requires |s| >= 3 && s[0] == '%' && HexChar(s[1]) && HexChar(s[2])
    ensures PercentDecode(s) == Prepend([16 * HexValue(s[1]) + HexValue(s[2])], PercentDecode(s[3..]))
  {
  }

  lemma EscapeThen(b: Byte, rest: string)
    ensures PercentDecode(Escape(b) + rest) == Prepend([b], PercentDecode(rest))
  {
    var hi, lo := HexDigits[b / 16], HexDigits[b % 16];
    HexDigitValue(b / 16);
    HexDigitValue(b % 16);
    HexPairThen(hi, lo, rest);
    assert 16 * (b / 16) + b % 16 == b;
  }

  lemma HexPairThen(hi: char, lo: char, rest: string)
    requires HexChar(hi) && HexChar(lo)
    ensures PercentDecode(['%', hi, lo] + rest) == Prepend([16 * HexValue(hi) + HexValue(lo)], PercentDecode(rest))
  {
    var s := ['%', hi, lo] + rest;
    assert s[3..] == rest;
    DecodeEscape(s);
  }

  lemma {:induction false} EscapeAllThen(bs: seq<Byte>, rest: string)
    ensures PercentDecode(EscapeAll(bs) + rest) == Prepend(bs, PercentDecode(rest))
    decreases |bs|
  {
    if |bs| == 0 {
      assert EscapeAll(bs) + rest == rest;
      PrependTwice([], [], PercentDecode(rest));
      if PercentDecode(rest).Some? {
        assert bs + PercentDecode(rest).value == PercentDecode(rest).value;
      }
    } else {
      assert EscapeAll(bs) + rest == Escape(bs[0]) + (EscapeAll(bs[1..]) + rest);
      EscapeThen(bs[0], EscapeAll(bs[1..]) + rest);
      EscapeAllThen(bs[1..], rest);
      PrependTwice([bs[0]], bs[1..], PercentDecode(rest));
      assert [bs[0]] + bs[1..] == bs;
    }
  }

  lemma QuoteCharThen(c: char, rest: string)
    ensures PercentDecode(QuoteChar(c) + rest) == Prepend(Utf8(c), PercentDecode(rest))
  {
    if Unreserved(c) {
      assert ([c] + rest)[1..] == rest;
    } else {
      EscapeAllThen(Utf8(c), rest);
    }
  }

  /** Decoding a quoted string gives exactly its UTF-8 bytes: `quote` loses
      nothing. */
  lemma {:induction false} QuoteDecodes(s: string)
    ensures PercentDecode(Quote(s)) == Some(Utf8Encode(s))
    decreases |s|
  {
    if |s| == 0 {
    } else {
      QuoteDecodes(s[1..]);
      QuoteCharThen(s[0], Quote(s[1..]));
    }
  }

  /** A string made only of unreserved characters is left as it is. */
  lemma {:induction false} QuoteUnreserved(s: string)
    requires forall i :: 0 <= i < |s| ==> Unreserved(s[i])
    ensures Quote(s) == s
    decreases |s|
  {
    if |s| > 0 {
      QuoteUnreserved(s[1..]);
      assert s == [s[0]] + s[1..];
    }
  }
}

=== FILE: round_trip.dfy ===
/** Reading back a generated log: `parse_front_matter` applied to the output
    of `create_log_content` yields exactly the header fields, the task
    sections as lists of their `content: "..."` items, an empty
    `ai_learning` list and the blockers summary. */
module RoundTrip {
  import opened Wrappers
  import opened Text
  import opened FrontMatter
  import opened LogContent

  // ------------------------------------------------------ `---`-free text

  lemma DelimAt(s: string, p: int)
    ensures OccursAt(s, Delimiter, p)
        <==> 0 <= p && p + 3 <= |s| && s[p] == '-' && s[p + 1] == '-' && s[p + 2] == '-'
  {
    if 0 <= p && p + 3 <= |s| {
      assert s[p..p + 3] == [s[p], s[p + 1], s[p + 2]];
    }
  }

  /** Text in which `---` does not occur. */
  predicate NoDelim(s: string) {
    !Contains(s, Delimiter)
  }

  /** Gluing two pieces creates no `---` when one side of the seam is not a dash. */
  lemma NoDelimConcat(a: string, b: string)
    requires NoDelim(a) && NoDelim(b)
    requires |a| == 0 || |b| == 0 || a[|a| - 1] != '-' || b[0] != '-'
    ensures NoDelim(a + b)
  {
    forall p | 0 <= p <= |a + b|
      ensures !OccursAt(a + b, Delimiter, p)
    {
      DelimAt(a + b, p);
      if p + 3 <= |a| {
        DelimAt(a, p);
        assert (a + b)[p] == a[p] && (a + b)[p + 1] == a[p + 1] && (a + b)[p + 2] == a[p + 2];
      } else if p >= |a| {
        DelimAt(b, p - |a|);
        if p + 3 <= |a + b| {
          assert (a + b)[p] == b[p - |a|] && (a + b)[p + 1] == b[p + 1 - |a|]
              && (a + b)[p + 2] == b[p + 2 - |a|];
        }
      } else if p + 3 <= |a + b| {
        assert (a + b)[|a| - 1] == a[|a| - 1] && (a + b)[|a|] == b[0];
      }
    }
  }

  lemma InlineConcat(a: string, b: string)
    requires Inline(a) && Inline(b)
    requires |a| == 0 || |b| == 0 || a[|a| - 1] != '-' || b[0] != '-'
    ensures Inline(a + b)
  {
    NoDelimConcat(a, b);
  }

  /** Text too short to hold `---` and free of newlines stays inline. */
  lemma ShortInline(s: string)
    requires |s| < 3 && '\n' !in s
    ensures Inline(s)
  {
  }

  lemma NoDashInline(s: string)
    requires '-' !in s && '\n' !in s
    ensures Inline(s)
  {
    forall p | 0 <= p <= |s| ensures !OccursAt(s, Delimiter, p) {
      DelimAt(s, p);
    }
  }

  /** `key: value` stays inline for a dash-free key. */
  lemma PairLineInline(key: string, v: string)
    requires '-' !in key && '\n' !in key && Inline(v)
    ensures Inline(PairLine(key, v))
  {
    NoDashInline(key + ": ");
    InlineConcat(key + ": ", v);
  }

  /** `"` + s + `"` stays inline. */
  lemma QuotedInline(s: string)
    requires Inline(s)
    ensures Inline("\"" + s + "\"")
  {
    NoDashInline("\"");
    InlineConcat("\"", s);
    InlineConcat("\"" + s, "\"");
  }

  lemma {:induction false} ReprItemsInline(xs: seq<string>)
    requires forall i :: 0 <= i < |xs| ==> Inline(xs[i])
    ensures Inline(ReprItems(xs))
    ensures |xs| > 0 ==> ReprItems(xs)[0] == '\'' && ReprItems(xs)[|ReprItems(xs)| - 1] == '\''
    decreases |xs|
  {
    if |xs| == 0 {
      NoDashInline("");
    } else {
      NoDashInline("'");
      NoDashInline("', ");
      InlineConcat("'", xs[0]);
      if |xs| == 1 {
        InlineConcat("'" + xs[0], "'");
      } else {
        InlineConcat("'" + xs[0], "', ");
        ReprItemsInline(xs[1..]);
        InlineConcat("'" + xs[0] + "', ", ReprItems(xs[1..]));
      }
    }
  }

  /** The Python list rendering of inline strings is inline and bracketed. */
  lemma ReprInline(xs: seq<string>)
    requires forall i :: 0 <= i < |xs| ==> Inline(xs[i])
    ensures Inline(PyRepr(xs))
    ensures PlainValue(PyRepr(xs))
  {
    ReprItemsInline(xs);
    NoDashInline("[");
    NoDashInline("]");
    InlineConcat("[", ReprItems(xs));
    InlineConcat("[" + ReprItems(xs), "]");
  }

  lemma {:induction false} AllBlockersInline(ts: seq<Task>)
    requires forall i :: 0 <= i < |ts| ==> TaskInline(ts[i])
    ensures forall i :: 0 <= i < |AllBlockers(ts)| ==> Inline(AllBlockers(ts)[i])
    decreases |ts|
  {
    if |ts| > 0 {
      assert TaskInline(ts[0]);
      AllBlockersInline(ts[1..]);
      var all := AllBlockers(ts);
      assert all == ts[0].blockers + AllBlockers(ts[1..]);
      forall i | 0 <= i < |all| ensures Inline(all[i]) {
        if i >= |ts[0].blockers| {
          assert all[i] == AllBlockers(ts[1..])[i - |ts[0].blockers|];
        }
      }
    }
  }

  lemma BlockersTextPlain(sd: Structured)
    requires WellFormedStructured(sd)
    ensures Inline(BlockersText(sd)) && PlainValue(BlockersText(sd))
  {
    AllBlockersInline(sd.inProgress);
    ReprInline(AllBlockers(sd.inProgress));
    NoDashInline("[]");
  }

  // ----------------------------------------------------- reading line runs

  /** An indented line that is not a list item. */
  predicate Indented(line: string) {
    |line| >= 3 && line[0] == ' ' && line[2] != '-'
  }

  lemma {:induction false} IndentedLines(st: ParseState, ls: seq<string>)
    requires st.Valid()
    requires forall i :: 0 <= i < |ls| ==> Indented(ls[i])
    ensures ParseLines(st, ls) == st
    decreases |ls|
  {
    if |ls| > 0 {
      IndentedNotItem(ls[0]);
      IndentedLine(st, ls[0]);
      IndentedLines(st, ls[1..]);
    }
  }

  lemma IndentedNotItem(line: string)
    requires Indented(line)
    ensures !StartsWith(RStrip(line), ItemMarker)
  {
    var r := RStrip(line);
    assert r == line[..|r|];
    assert |r| >= 3 ==> r[2] == line[2];
  }

  lemma DetailLinesIndented(t: Task, sec: Section)
    ensures forall i :: 0 <= i < |DetailLines(t, sec)| ==> Indented(DetailLines(t, sec)[i])
  {
  }

  /** One task: its item is appended and its detail line is skipped. */
  lemma OneTaskParse(st: ParseState, t: Task, sec: Section)
    requires st.Valid() && st.cursor.Attached?
    ensures ParseLines(st, [ItemMarker + ItemText(t)] + DetailLines(t, sec)) == Appended(st, [ItemText(t)])
  {
    var x := ItemText(t);
    assert x[0] == 'c' && x[|x| - 1] == '"';
    ItemLine(st, x);
    ParseLinesAppend(st, [ItemMarker + x], DetailLines(t, sec));
    ParseLinesOne(st, ItemMarker + x);
    DetailLinesIndented(t, sec);
    IndentedLines(Step(st, ItemMarker + x), DetailLines(t, sec));
  }

  /** The items of a task list are appended, in order, to the current list. */
  lemma {:induction false} TaskLinesParse(st: ParseState, ts: seq<Task>, sec: Section)
    requires st.Valid() && st.cursor.Attached?
    ensures ParseLines(st, TaskLines(ts, sec)) == Appended(st, Items(ts))
    decreases |ts|
  {
    if |ts| == 0 {
      var k := st.cursor.key;
      assert st.data[k].items + [] == st.data[k].items;
      assert st.data[k := List(st.data[k].items)] == st.data;
    } else {
      var s1 := Appended(st, [ItemText(ts[0])]);
      TaskLinesParse(s1, ts[1..], sec);
      TaskLinesCons(st, ts, sec);
    }
  }

  /** `st` with `ys` appended to its current list. */
  function Appended(st: ParseState, ys: seq<string>): (r: ParseState)
    requires st.Valid() && st.cursor.Attached?
    ensures r.Valid() && r.cursor == st.cursor
  {
    ParseState(st.data[st.cursor.key := List(st.data[st.cursor.key].items + ys)], st.cursor)
  }

  lemma AppendedTwice(st: ParseState, ys: seq<string>, zs: seq<string>)
    requires st.Valid() && st.cursor.Attached?
    ensures Appended(Appended(st, ys), zs) == Appended(st, ys + zs)
  {
    var k := st.cursor.key;
    assert st.data[k].items + ys + zs == st.data[k].items + (ys + zs);
  }

  lemma TaskLinesCons(st: ParseState, ts: seq<Task>, sec: Section)
    requires st.Valid() && st.cursor.Attached? && |ts| > 0
    requires ParseLines(Appended(st, [ItemText(ts[0])]), TaskLines(ts[1..], sec))
          == Appended(Appended(st, [ItemText(ts[0])]), Items(ts[1..]))
    ensures ParseLines(st, TaskLines(ts, sec)) == Appended(st, Items(ts))
  {
    var first := [ItemMarker + ItemText(ts[0])] + DetailLines(ts[0], sec);
    var rest := TaskLines(ts[1..], sec);
    assert TaskLines(ts, sec) == first + rest;
    ParseLinesAppend(st, first, rest);
    OneTaskParse(st, ts[0], sec);
    AppendedTwice(st, [ItemText(ts[0])], Items(ts[1..]));
    assert Items(ts) == [ItemText(ts[0])] + Items(ts[1..]);
  }

  /** A list key followed by indented lines only: the key holds a fresh,
      current, empty list. */
  lemma ListBlockParse(st: ParseState, key: string, d: seq<string>)
    requires st.Valid() && PlainKey(key)
    requires forall i :: 0 <= i < |d| ==> Indented(d[i])
    ensures ParseLines(st, [key + ":"] + d) == ParseState(st.data[key := List([])], Attached(key))
  {
    ListKeyThen(st, key, d);
    IndentedLines(ParseState(st.data[key := List([])], Attached(key)), d);
  }

  /** A list key followed by task lines: the key holds the tasks' items and
      is current. */
  lemma TaskBlockParse(st: ParseState, key: string, ts: seq<Task>, sec: Section)
    requires st.Valid() && PlainKey(key)
    ensures ParseLines(st, [key + ":"] + TaskLines(ts, sec))
         == ParseState(st.data[key := List(Items(ts))], Attached(key))
  {
    ListKeyThen(st, key, TaskLines(ts, sec));
    var s1 := ParseState(st.data[key := List([])], Attached(key));
    TaskLinesParse(s1, ts, sec);
    AppendedFresh(st, key, Items(ts));
  }

  lemma AppendedFresh(st: ParseState, key: string, ys: seq<string>)
    requires st.Valid()
    ensures Appended(ParseState(st.data[key := List([])], Attached(key)), ys)
         == ParseState(st.data[key := List(ys)], Attached(key))
  {
    assert [] + ys == ys;
    assert st.data[key := List([])][key := List(ys)] == st.data[key := List(ys)];
  }

  /** A written section stores its items under its key and becomes current. */
  lemma SectionParse(st: ParseState, ts: seq<Task>, sec: Section)
    requires st.Valid()
    ensures ParseLines(st, SectionBlock(ts, sec))
         == if |ts| == 0 then st
            else ParseState(st.data[SectionKey(sec) := List(Items(ts))], Attached(SectionKey(sec)))
  {
    if |ts| > 0 {
      SectionKeyPlain(sec);
      TaskBlockParse(st, SectionKey(sec), ts, sec);
    }
  }

  /** `ai_learning` becomes an empty, current list: its fields are indented
      lines the reader skips. */
  lemma AiParse(st: ParseState, al: AiLearning)
    requires st.Valid()
    ensures ParseLines(st, AiLines(al)) == ParseState(st.data[AiKey := List([])], Attached(AiKey))
  {
    AiKeyPlain();
    AiDetailIndented(al);
    ListBlockParse(st, AiKey, AiDetail(al));
  }

  lemma AiDetailIndented(al: AiLearning)
    ensures forall i :: 0 <= i < |AiDetail(al)| ==> Indented(AiDetail(al)[i])
  {
    var a := if al.topic != "" then ["  topic: \"" + al.topic + "\""] else [];
    var b := if al.insight != "" then ["  insight: \"" + al.insight + "\""] else [];
    var c := if al.appliedTo != "" then ["  applied_to: \"" + al.appliedTo + "\""] else [];
    assert forall i :: 0 <= i < |a| ==> Indented(a[i]);
    assert forall i :: 0 <= i < |b| ==> Indented(b[i]);
    assert forall i :: 0 <= i < |c| ==> Indented(c[i]);
    assert AiDetail(al) == a + b + c;
  }

  lemma SectionKeyPlain(sec: Section)
    ensures PlainKey(SectionKey(sec))
  {
  }

  lemma AiKeyPlain()
    ensures PlainKey(AiKey) && PlainKey(BlockersKey)
  {
  }

  /** The mapping `key: value` lines produce, written left to right. */
  function WithPairs(d: Data, keys: seq<string>, vals: seq<string>): Data
    requires |keys| == |vals|
    decreases |keys|
  {
    if |keys| == 0 then d else WithPairs(d[keys[0] := Str(vals[0])], keys[1..], vals[1..])
  }

  /** A run of `key: value` lines read with no list open. */
  lemma {:induction false} PairsParse(st: ParseState, keys: seq<string>, vals: seq<string>)
    requires st.Valid() && st.cursor == NoList && |keys| == |vals|
    requires forall i :: 0 <= i < |keys| ==> PlainKey(keys[i]) && PlainValue(vals[i])
    ensures ParseLines(st, PairLines(keys, vals)) == ParseState(WithPairs(st.data, keys, vals), NoList)
    decreases |keys|
  {
    if |keys| > 0 {
      var k, v, rest := keys[0], vals[0], PairLines(keys[1..], vals[1..]);
      assert PlainKey(k) && PlainValue(v);
      ScalarThen(st, k, v, rest);
      PairsParse(ParseState(st.data[k := Str(v)], NoList), keys[1..], vals[1..]);
    }
  }

  lemma HeaderKeysPlain()
    ensures forall i :: 0 <= i < |HeaderKeys| ==> PlainKey(HeaderKeys[i])
  {
  }

  lemma SourcePlain()
    ensures HeaderValue(Source)
  {
    forall p | 0 <= p <= |Source| ensures !OccursAt(Source, Delimiter, p) {
      DelimAt(Source, p);
    }
  }

  lemma HeaderMapPairs(h: Header)
    ensures WithPairs(map[], HeaderKeys, HeaderValues(h)) == HeaderMap(h)
  {
  }

  /** The six header lines read back as the header mapping, with no list open. */
  lemma HeaderParse(h: Header)
    requires WellFormedHeader(h)
    ensures ParseLines(Start, HeaderLines(h)) == ParseState(HeaderMap(h), NoList)
  {
    HeaderKeysPlain();
    SourcePlain();
    PairsParse(Start, HeaderKeys, HeaderValues(h));
    HeaderMapPairs(h);
  }
  /** The blank line and the banner comment change nothing. */
  lemma BannerParse(st: ParseState)
    requires st.Valid()
    ensures ParseLines(st, ["", SectionBanner]) == st
  {
    SkippedLine(st, "");
    SkippedLine(st, SectionBanner);
    assert ["", SectionBanner] == [""] + [SectionBanner];
    ParseLinesAppend(st, [""], [SectionBanner]);
    ParseLinesOne(st, "");
    ParseLinesOne(st, SectionBanner);
  }

  lemma SectionData(st: ParseState, ts: seq<Task>, sec: Section)
    requires st.Valid()
    ensures ParseLines(st, SectionBlock(ts, sec)).data == WithSection(st.data, ts, sec)
  {
    SectionParse(st, ts, sec);
  }

  lemma AiData(st: ParseState, ai: Option<AiLearning>)
    requires st.Valid()
    ensures ParseLines(st, AiBlock(ai)).data == if ai.Some? then st.data[AiKey := List([])] else st.data
  {
    if ai.Some? {
      AiParse(st, ai.value);
    }
  }

  lemma BlockersData(st: ParseState, s: Structured)
    requires st.Valid() && WellFormedStructured(s)
    ensures ParseLines(st, [PairLine(BlockersKey, BlockersText(s))]).data == st.data[BlockersKey := Str(BlockersText(s))]
  {
    AiKeyPlain();
    BlockersTextPlain(s);
    ScalarThen(st, BlockersKey, BlockersText(s), []);
    assert [PairLine(BlockersKey, BlockersText(s))] + [] == [PairLine(BlockersKey, BlockersText(s))];
  }

  /** The structured part adds exactly the entries of `StructuredMap`. */
  lemma StructuredParse(st: ParseState, s: Structured)
    requires st.Valid() && WellFormedStructured(s)
    ensures ParseLines(st, StructuredLines(s)).data == StructuredMap(st.data, s)
  {
    var L0, L1, L2, L3 := ["", SectionBanner], SectionBlock(s.done, Done),
      SectionBlock(s.inProgress, InProgress), SectionBlock(s.tomorrow, Tomorrow);
    var L4, L5 := AiBlock(s.aiLearning), [PairLine(BlockersKey, BlockersText(s))];
    assert StructuredLines(s) == L0 + L1 + L2 + L3 + L4 + L5;
    BannerParse(st);
    ParseLinesAppend(st, L0, L1);
    var s1 := ParseLines(st, L1);
    SectionData(st, s.done, Done);
    ParseLinesAppend(st, L0 + L1, L2);
    var s2 := ParseLines(s1, L2);
    SectionData(s1, s.inProgress, InProgress);
    ParseLinesAppend(st, L0 + L1 + L2, L3);
    var s3 := ParseLines(s2, L3);
    SectionData(s2, s.tomorrow, Tomorrow);
    ParseLinesAppend(st, L0 + L1 + L2 + L3, L4);
    var s4 := ParseLines(s3, L4);
    AiData(s3, s.aiLearning);
    ParseLinesAppend(st, L0 + L1 + L2 + L3 + L4, L5);
    BlockersData(s4, s);
  }
  // ------------------------------------------------ every line is inline

  predicate AllInline(ls: seq<string>) {
    forall i :: 0 <= i < |ls| ==> Inline(ls[i])
  }

  lemma AllInlineConcat(a: seq<string>, b: seq<string>)
    requires AllInline(a) && AllInline(b)
    ensures AllInline(a + b)
  {
    assert forall i :: |a| <= i < |a + b| ==> (a + b)[i] == b[i - |a|];
  }

  /** A literal prefix followed by inline text. */
  lemma PrefixedInline(pre: string, s: string)
    requires '-' !in pre && '\n' !in pre && Inline(s)
    ensures Inline(pre + s)
  {
    NoDashInline(pre);
    InlineConcat(pre, s);
  }

  lemma ItemMarkerInline()
    ensures Inline(ItemMarker)
  {
    forall p | 0 <= p <= |ItemMarker| ensures !OccursAt(ItemMarker, Delimiter, p) {
      DelimAt(ItemMarker, p);
    }
  }

  /** `pre"s"` for a dash-free prefix. */
  lemma QuotedFieldInline(pre: string, s: string)
    requires '-' !in pre && '\n' !in pre && Inline(s)
    ensures Inline(pre + "\"" + s + "\"")
  {
    QuotedInline(s);
    PrefixedInline(pre, "\"" + s + "\"");
    assert pre + "\"" + s + "\"" == pre + ("\"" + s + "\"");
  }

  lemma TaskLineInline(t: Task, sec: Section)
    requires TaskInline(t)
    ensures AllInline([ItemMarker + ItemText(t)] + DetailLines(t, sec))
  {
    ItemMarkerInline();
    QuotedFieldInline("content: ", t.content);
    assert ItemText(t) == "content: " + "\"" + t.content + "\"";
    InlineConcat(ItemMarker, ItemText(t));
    match sec
    case Done =>
      if t.project != "" {
        PrefixedInline("    project: ", t.project);
      }
    case InProgress =>
      if |t.blockers| > 0 {
        ReprInline(t.blockers);
        PrefixedInline("    blockers: ", PyRepr(t.blockers));
      }
    case Tomorrow =>
  }

  lemma {:induction false} TaskLinesInline(ts: seq<Task>, sec: Section)
    requires forall i :: 0 <= i < |ts| ==> TaskInline(ts[i])
    ensures AllInline(TaskLines(ts, sec))
    decreases |ts|
  {
    if |ts| > 0 {
      TaskLineInline(ts[0], sec);
      TaskLinesInline(ts[1..], sec);
      AllInlineConcat([ItemMarker + ItemText(ts[0])] + DetailLines(ts[0], sec), TaskLines(ts[1..], sec));
    }
  }

  lemma SectionBlockInline(ts: seq<Task>, sec: Section)
    requires forall i :: 0 <= i < |ts| ==> TaskInline(ts[i])
    ensures AllInline(SectionBlock(ts, sec))
  {
    if |ts| > 0 {
      NoDashInline(SectionKey(sec) + ":");
      TaskLinesInline(ts, sec);
      AllInlineConcat([SectionKey(sec) + ":"], TaskLines(ts, sec));
    }
  }

  lemma AiBlockInline(ai: Option<AiLearning>)
    requires ai.Some? ==> Inline(ai.value.topic) && Inline(ai.value.insight) && Inline(ai.value.appliedTo)
    ensures AllInline(AiBlock(ai))
  {
    if ai.Some? {
      var al := ai.value;
      NoDashInline(AiKey + ":");
      QuotedFieldInline("  topic: ", al.topic);
      QuotedFieldInline("  insight: ", al.insight);
      QuotedFieldInline("  applied_to: ", al.appliedTo);
      var a := if al.topic != "" then ["  topic: \"" + al.topic + "\""] else [];
      var b := if al.insight != "" then ["  insight: \"" + al.insight + "\""] else [];
      var c := if al.appliedTo != "" then ["  applied_to: \"" + al.appliedTo + "\""] else [];
      assert "  topic: \"" + al.topic + "\"" == "  topic: " + "\"" + al.topic + "\"";
      assert "  insight: \"" + al.insight + "\"" == "  insight: " + "\"" + al.insight + "\"";
      assert "  applied_to: \"" + al.appliedTo + "\"" == "  applied_to: " + "\"" + al.appliedTo + "\"";
      AllInlineConcat([AiKey + ":"], a);
      AllInlineConcat([AiKey + ":"] + a, b);
      AllInlineConcat([AiKey + ":"] + a + b, c);
      assert AiBlock(ai) == [AiKey + ":"] + a + b + c;
    }
  }

  lemma StructuredLinesInline(s: Structured)
    requires WellFormedStructured(s)
    ensures AllInline(StructuredLines(s))
  {
    var L0, L1, L2, L3 := ["", SectionBanner], SectionBlock(s.done, Done),
      SectionBlock(s.inProgress, InProgress), SectionBlock(s.tomorrow, Tomorrow);
    var L4, L5 := AiBlock(s.aiLearning), [PairLine(BlockersKey, BlockersText(s))];
    BannerInline();
    SectionBlockInline(s.done, Done);
    SectionBlockInline(s.inProgress, InProgress);
    SectionBlockInline(s.tomorrow, Tomorrow);
    AiBlockInline(s.aiLearning);
    BlockersLineInline(s);
    AllInlineConcat(L0, L1);
    AllInlineConcat(L0 + L1, L2);
    AllInlineConcat(L0 + L1 + L2, L3);
    AllInlineConcat(L0 + L1 + L2 + L3, L4);
    AllInlineConcat(L0 + L1 + L2 + L3 + L4, L5);
  }

  lemma BannerInline()
    ensures AllInline(["", SectionBanner])
  {
    NoDashInline("");
    NoDashInline(SectionBanner);
  }

  lemma BlockersLineInline(s: Structured)
    requires WellFormedStructured(s)
    ensures AllInline([PairLine(BlockersKey, BlockersText(s))])
  {
    BlockersTextPlain(s);
    PairLineInline(BlockersKey, BlockersText(s));
  }

  lemma HeaderLinesInline(h: Header)
    requires WellFormedHeader(h)
    ensures AllInline(HeaderLines(h))
  {
    SourcePlain();
    HeaderKeysDashFree();
    var vals := HeaderValues(h);
    assert forall i :: 0 <= i < |vals| ==> Inline(vals[i]);
    PairLinesInline(HeaderKeys, vals);
  }

  lemma PairLinesInline(keys: seq<string>, vals: seq<string>)
    requires |keys| == |vals|
    requires forall i :: 0 <= i < |keys| ==> '-' !in keys[i] && '\n' !in keys[i]
    requires forall i :: 0 <= i < |vals| ==> Inline(vals[i])
    ensures AllInline(PairLines(keys, vals))
  {
    forall i | 0 <= i < |keys| ensures Inline(PairLines(keys, vals)[i]) {
      PairLineInline(keys[i], vals[i]);
    }
  }

  lemma HeaderKeysDashFree()
    ensures forall i :: 0 <= i < |HeaderKeys| ==> '-' !in HeaderKeys[i] && '\n' !in HeaderKeys[i]
  {
  }

  lemma BlockLinesInline(h: Header, sd: Option<Structured>)
    requires WellFormedHeader(h) && (sd.Some? ==> WellFormedStructured(sd.value))
    ensures AllInline(BlockLines(h, sd))
  {
    HeaderLinesInline(h);
    match sd
    case None =>
      assert BlockLines(h, sd) == HeaderLines(h) + [];
    case Some(s) =>
      StructuredLinesInline(s);
      AllInlineConcat(HeaderLines(h), StructuredLines(s));
  }
  // ------------------------------------------------ locating the block

  /** Newline-joined inline lines hold no `---`. */
  lemma {:induction false} JoinNoDelim(ls: seq<string>)
    requires AllInline(ls)
    ensures NoDelim(Join(ls, '\n'))
    decreases |ls|
  {
    if |ls| == 0 {
      NoDashInline("");
    } else if |ls| == 1 {
      assert Inline(ls[0]);
    } else {
      NoDashNoDelim("\n");
      JoinNoDelim(ls[1..]);
      assert Inline(ls[0]);
      NoDelimConcat(ls[0], "\n");
      NoDelimConcat(ls[0] + "\n", Join(ls[1..], '\n'));
    }
  }

  lemma NoDashNoDelim(s: string)
    requires '-' !in s
    ensures NoDelim(s)
  {
    forall p | 0 <= p <= |s| ensures !OccursAt(s, Delimiter, p) {
      DelimAt(s, p);
    }
  }

  /** The first and last characters of a join are those of the first and
      last pieces when these are non-empty. */
  lemma {:induction false} JoinEnds(ls: seq<string>, sep: char)
    requires |ls| > 0 && |ls[0]| > 0 && |ls[|ls| - 1]| > 0
    ensures |Join(ls, sep)| > 0
    ensures Join(ls, sep)[0] == ls[0][0]
    ensures Join(ls, sep)[|Join(ls, sep)| - 1] == ls[|ls| - 1][|ls[|ls| - 1]| - 1]
    decreases |ls|
  {
    if |ls| > 1 {
      var rest := ls[1..];
      assert rest[|rest| - 1] == ls[|ls| - 1];
      if |rest| == 1 {
        assert Join(rest, sep) == rest[0];
      } else {
        assert |rest[0]| > 0 || |rest| > 1;
        JoinEndsTail(rest, sep);
      }
    }
  }

  lemma {:induction false} JoinEndsTail(ls: seq<string>, sep: char)
    requires |ls| > 0 && |ls[|ls| - 1]| > 0
    ensures |Join(ls, sep)| > 0
    ensures Join(ls, sep)[|Join(ls, sep)| - 1] == ls[|ls| - 1][|ls[|ls| - 1]| - 1]
    decreases |ls|
  {
    if |ls| > 1 {
      var rest := ls[1..];
      assert rest[|rest| - 1] == ls[|ls| - 1];
      JoinEndsTail(rest, sep);
    }
  }

  /** `---`, an inline text ending in a non-dash, then `---`: the closing
      delimiter is found right after the text. */
  lemma FindClosing(x: string, rest: string)
    requires NoDelim(x) && |x| > 0 && x[|x| - 1] != '-'
    ensures FindFrom(Delimiter + x + Delimiter + rest, Delimiter, 3) == Some(3 + |x|)
  {
    var c := Delimiter + x + Delimiter + rest;
    var e := 3 + |x|;
    assert c[e..e + 3] == Delimiter;
    assert OccursAt(c, Delimiter, e);
    forall j | 3 <= j < e ensures !OccursAt(c, Delimiter, j) {
      DelimAt(c, j);
      if j + 3 <= e {
        DelimAt(x, j - 3);
        assert c[j] == x[j - 3] && c[j + 1] == x[j - 2] && c[j + 2] == x[j - 1];
      } else {
        assert c[e - 1] == x[|x| - 1];
      }
    }
  }
  // ------------------------------------------------------- the theorem

  /** The lines between the delimiters read back as `Decoded`. */
  lemma BlockParse(h: Header, sd: Option<Structured>)
    requires WellFormedHeader(h) && (sd.Some? ==> WellFormedStructured(sd.value))
    ensures ParseLines(Start, BlockLines(h, sd)).data == Decoded(h, sd)
  {
    if sd.Some? {
      BlockParseSome(h, sd.value);
    } else {
      BlockParseNone(h);
    }
  }

  lemma BlockParseNone(h: Header)
    requires WellFormedHeader(h)
    ensures ParseLines(Start, BlockLines(h, None)).data == HeaderMap(h)
  {
    assert BlockLines(h, None) == HeaderLines(h) + [] == HeaderLines(h);
    HeaderParse(h);
  }

  lemma BlockParseSome(h: Header, s: Structured)
    requires WellFormedHeader(h) && WellFormedStructured(s)
    ensures ParseLines(Start, BlockLines(h, Some(s))).data == StructuredMap(HeaderMap(h), s)
  {
    assert BlockLines(h, Some(s)) == HeaderLines(h) + StructuredLines(s);
    HeaderParse(h);
    ThenStructured(HeaderLines(h), HeaderMap(h), s);
  }

  lemma ThenStructured(pre: seq<string>, d: Data, s: Structured)
    requires ParseLines(Start, pre) == ParseState(d, NoList) && WellFormedStructured(s)
    ensures ParseLines(Start, pre + StructuredLines(s)).data == StructuredMap(d, s)
  {
    ParseLinesAppend(Start, pre, StructuredLines(s));
    StructuredParse(ParseState(d, NoList), s);
  }

  /** The block's text opens and closes with a non-whitespace character. */
  lemma BlockEnds(h: Header, sd: Option<Structured>)
    requires WellFormedHeader(h) && (sd.Some? ==> WellFormedStructured(sd.value))
    ensures |Join(BlockLines(h, sd), '\n')| > 0
    ensures Join(BlockLines(h, sd), '\n')[0] !in Whitespace
    ensures Join(BlockLines(h, sd), '\n')[|Join(BlockLines(h, sd), '\n')| - 1] !in Whitespace
  {
    var B := BlockLines(h, sd);
    var H := HeaderLines(h);
    assert B[0] == H[0] == PairLine(HeaderKeys[0], h.memberId);
    assert B[0][0] == 'm';
    LastLineEnd(h, sd);
    JoinEnds(B, '\n');
  }

  lemma LastLineEnd(h: Header, sd: Option<Structured>)
    requires sd.Some? ==> WellFormedStructured(sd.value)
    ensures |BlockLines(h, sd)| > 0
    ensures var last := BlockLines(h, sd)[|BlockLines(h, sd)| - 1];
            |last| > 0 && last[|last| - 1] !in Whitespace
  {
    var H := HeaderLines(h);
    match sd
    case None =>
      assert BlockLines(h, sd) == H + [];
      assert H[5] == PairLine(HeaderKeys[5], Source);
    case Some(s) =>
      var S := StructuredLines(s);
      assert BlockLines(h, sd) == H + S;
      BlockersTextPlain(s);
      assert S[|S| - 1] == PairLine(BlockersKey, BlockersText(s));
  }

  /** Newline-joining a line, a block of lines and the same line again. */
  lemma WrapJoin(d: string, B: seq<string>)
    requires |B| >= 1
    ensures Join([d] + B + [d], '\n') == d + ("\n" + Join(B, '\n') + "\n") + d
  {
    assert [d] + B + [d] == [d] + (B + [d]);
    JoinFront(d, B + [d]);
    JoinBack(B, d);
    WrapAssoc(d, Join(B, '\n'));
  }

  lemma JoinFront(d: string, B: seq<string>)
    requires |B| >= 1
    ensures Join([d] + B, '\n') == d + ['\n'] + Join(B, '\n')
  {
    assert ([d] + B)[1..] == B;
  }

  lemma JoinBack(B: seq<string>, d: string)
    requires |B| >= 1
    ensures Join(B + [d], '\n') == Join(B, '\n') + ['\n'] + d
  {
    JoinAppend(B, [d], '\n');
  }

  lemma WrapAssoc(d: string, J: string)
    ensures d + ['\n'] + (J + ['\n'] + d) == d + ("\n" + J + "\n") + d
  {
  }

  /** The generated document is `---`, a newline, the block, a newline,
      `---` and the trailer. */
  lemma DocumentShape(h: Header, body: string, sd: Option<Structured>,
                      dateTitle: string, weekday: string, clock: string)
    ensures CreateLogContent(h, body, sd, dateTitle, weekday, clock)
         == Delimiter + ("\n" + Join(BlockLines(h, sd), '\n') + "\n") + Delimiter
            + Trailer(h.memberName, body, dateTitle, weekday, clock)
  {
    assert |HeaderLines(h)| == 6;
    WrapJoin(Delimiter, BlockLines(h, sd));
  }

  lemma Framed(d: string, x: string, tail: string)
    ensures StartsWith(d + x + d + tail, d)
    ensures (d + x + d + tail)[|d|..|d| + |x|] == x
  {
    assert (d + x + d + tail)[..|d|] == d;
  }

  lemma WrappedNoDelim(B: seq<string>)
    requires AllInline(B)
    ensures NoDelim("\n" + Join(B, '\n') + "\n")
  {
    var J := Join(B, '\n');
    JoinNoDelim(B);
    NoDashNoDelim("\n");
    NoDelimConcat("\n", J);
    NoDelimConcat("\n" + J, "\n");
  }

  lemma StripWrapped(J: string)
    requires |J| > 0 && J[0] !in Whitespace && J[|J| - 1] !in Whitespace
    ensures Strip("\n" + J + "\n") == J
  {
    StripSetPadded("\n", J, "\n", Whitespace);
  }

  lemma InlineSplit(B: seq<string>)
    requires |B| >= 1 && AllInline(B)
    ensures Split(Join(B, '\n'), '\n') == B
  {
    assert forall i :: 0 <= i < |B| ==> '\n' !in B[i];
    SplitJoin(B, '\n');
  }

  /** What `parse_front_matter` reads once the block `x` has been located. */
  lemma FoundBlock(c: string, x: string, B: seq<string>)
    requires StartsWith(c, Delimiter) && FindFrom(c, Delimiter, 3) == Some(3 + |x|)
    requires c[3..3 + |x|] == x && Split(Strip(x), '\n') == B
    ensures ParseFrontMatter(c) == ParseLines(Start, B).data
  {
  }

  /** A delimited block of inline lines whose text has no whitespace at
      either end is found, trimmed and split back into those lines, whatever
      follows the closing delimiter. */
  lemma DelimitedParse(B: seq<string>, tail: string)
    requires |B| >= 1 && AllInline(B)
    requires |Join(B, '\n')| > 0
    requires Join(B, '\n')[0] !in Whitespace && Join(B, '\n')[|Join(B, '\n')| - 1] !in Whitespace
    ensures ParseFrontMatter(Delimiter + ("\n" + Join(B, '\n') + "\n") + Delimiter + tail)
         == ParseLines(Start, B).data
  {
    var J := Join(B, '\n');
    var x := "\n" + J + "\n";
    var c := Delimiter + x + Delimiter + tail;
    Framed(Delimiter, x, tail);
    WrappedNoDelim(B);
    FindClosing(x, tail);
    StripWrapped(J);
    InlineSplit(B);
    FoundBlock(c, x, B);
  }

  /** `parse_front_matter` reads back, from any document `create_log_content`
      writes with well-formed fields, exactly the header fields, each written
      task section as the list of its `content: "..."` items, an empty
      `ai_learning` list when that entry was given, and the blockers summary. */
  lemma CreateThenParse(h: Header, body: string, sd: Option<Structured>,
                        dateTitle: string, weekday: string, clock: string)
    requires WellFormedHeader(h) && (sd.Some? ==> WellFormedStructured(sd.value))
    ensures ParseFrontMatter(CreateLogContent(h, body, sd, dateTitle, weekday, clock)) == Decoded(h, sd)
  {
    DocumentShape(h, body, sd, dateTitle, weekday, clock);
    BlockLinesInline(h, sd);
    BlockEnds(h, sd);
    DelimitedParse(BlockLines(h, sd), Trailer(h.memberName, body, dateTitle, weekday, clock));
    BlockParse(h, sd);
  }
}

=== FILE: search.dfy ===
/** The decision logic of `search_team_logs` (scripts/github_sync.py): which
    members and log files are looked at, whether a file matches the query,
    how it is classified and excerpted, and where the result list stops. The
    directory listings and file contents the source fetches are inputs here. */
module Search {
  import opened Wrappers
  import opened Text
  import opened FrontMatter
  import opened LogContent
  import opened Paths
  import opened RoundTrip

  /** The search parameters; an empty string stands for an absent one (the
      source tests them for truthiness, so `None` and `""` behave alike). */
  datatype Query = Query(keyword: string, project: string, member: string,
                         dateFrom: string, dateTo: string, limit: int)

  /** A log file of a member directory. `content` is `None` when fetching it
      failed; the source then skips the file. */
  datatype LogFile = LogFile(name: string, htmlUrl: string, content: Option<string>)

  /** A member directory; `files` is `None` when listing it failed. */
  datatype MemberDir = MemberDir(memberId: string, files: Option<seq<LogFile>>)

  datatype MatchType = ProjectMatch | KeywordMatch | AllMatch

  datatype Hit = Hit(memberId: string, memberName: Value, date: string, matchType: MatchType,
                     excerpt: string, url: string, frontMatter: Data)

  const FilesPerMember: nat := 20
  const ExcerptLimit: nat := 300
  const ProjectLabel: string := "项目: "
  const AiLabel: string := "AI 学习: "

  /** The directory searched: the team's, or the china team's for an unknown
      team name. */
  function SearchDir(team: string): (r: string)
    ensures team in TeamDirs ==> r == MembersRoot + "/" + TeamDirs[team]
    ensures team !in TeamDirs ==> r == MembersRoot + "/" + TeamDirs["china"]
  {
    MembersRoot + "/" + (if team in TeamDirs then TeamDirs[team] else TeamDirs["china"])
  }

  /** Search reads the directory that pushing writes to: a log stored for a
      known team lies under that team's search directory, and an unknown
      team, which pushing refuses, is searched as the china team. */
  lemma SearchFindsPushedPath(memberId: string, team: string, date: string)
    ensures team in TeamDirs ==>
      GetFilePath(memberId, team, date).value == SearchDir(team) + "/" + memberId + "/" + FileName(date)
    ensures team !in TeamDirs ==>
      GetFilePath(memberId, team, date).Failure? && SearchDir(team) == SearchDir("china")
  {
  }

  // ------------------------------------------------------------ selection

  /** The member filter: case-insensitive substring of the directory name. */
  predicate MemberSelected(q: Query, memberId: string) {
    q.member == "" || Contains(Lower(memberId), Lower(q.member))
  }

  predicate IsLogFile(f: LogFile) {
    EndsWith(f.name, LogSuffix)
  }

  function LogFiles(fs: seq<LogFile>): (r: seq<LogFile>)
    ensures forall i :: 0 <= i < |r| ==> IsLogFile(r[i])
    ensures multiset(r) <= multiset(fs)
    ensures forall f :: f in fs && IsLogFile(f) ==> f in r
    decreases |fs|
  {
    if |fs| == 0 then []
    else
      var rest := LogFiles(fs[1..]);
      assert fs == [fs[0]] + fs[1..];
      if IsLogFile(fs[0]) then [fs[0]] + rest else rest
  }

  /** Names in non-increasing order. */
  predicate SortedDesc(s: seq<LogFile>) {
    forall i, j :: 0 <= i < j < |s| ==> LexLessEq(s[j].name, s[i].name)
  }

  /** Puts `x` after every file whose name is not smaller, so files with
      equal names keep their order (Python's sort is stable, also reversed). */
  function Insert(x: LogFile, s: seq<LogFile>): (r: seq<LogFile>)
    ensures multiset(r) == multiset(s) + multiset{x}
    decreases |s|
  {
    if |s| == 0 then [x]
    else if LexLess(s[0].name, x.name) then [x] + s
    else
      assert s == [s[0]] + s[1..];
      [s[0]] + Insert(x, s[1..])
  }

  lemma {:induction false} InsertSorted(x: LogFile, s: seq<LogFile>)
    requires SortedDesc(s)
    ensures SortedDesc(Insert(x, s))
    decreases |s|
  {
    if |s| > 0 {
      if LexLess(s[0].name, x.name) {
        InsertFront(x, s);
      } else {
        InsertSorted(x, s[1..]);
        LexNotLess(s[0].name, x.name);
        InsertBehind(x, s, Insert(x, s[1..]));
      }
    }
  }

  /** A name above the head goes first. */
  lemma InsertFront(x: LogFile, s: seq<LogFile>)
    requires SortedDesc(s) && |s| > 0 && LexLess(s[0].name, x.name)
    ensures SortedDesc([x] + s)
  {
    var r := [x] + s;
    forall i, j | 0 <= i < j < |r| ensures LexLessEq(r[j].name, r[i].name) {
      if i == 0 {
        assert r[j] == s[j - 1];
        if j - 1 > 0 {
          assert LexLessEq(s[j - 1].name, s[0].name);
          LexLessEqTransitive(s[j - 1].name, s[0].name, x.name);
        }
      } else {
        assert r[i] == s[i - 1] && r[j] == s[j - 1];
      }
    }
  }

  /** Otherwise the head stays in front of the sorted insertion into the rest. */
  lemma InsertBehind(x: LogFile, s: seq<LogFile>, t: seq<LogFile>)
    requires SortedDesc(s) && |s| > 0 && LexLessEq(x.name, s[0].name)
    requires SortedDesc(t) && multiset(t) == multiset(s[1..]) + multiset{x}
    ensures SortedDesc([s[0]] + t)
  {
    var r := [s[0]] + t;
    forall i, j | 0 <= i < j < |r| ensures LexLessEq(r[j].name, r[i].name) {
      if i == 0 {
        assert r[j] in multiset(t);
        if r[j] != x {
          assert r[j] in s[1..];
          var k :| 1 <= k < |s| && s[k] == r[j] by {
            assert r[j] in multiset(s[1..]);
            var k' :| 0 <= k' < |s[1..]| && s[1..][k'] == r[j];
            assert s[k' + 1] == r[j];
          }
        }
      } else {
        assert r[i] == t[i - 1] && r[j] == t[j - 1];
      }
    }
  }

  /** The source's `sort(key=name, reverse=True)`. */
  function SortDesc(s: seq<LogFile>): (r: seq<LogFile>)
    ensures multiset(r) == multiset(s)
    decreases |s|
  {
    if |s| == 0 then []
    else
      var n := |s| - 1;
      assert s == s[..n] + [s[n]];
      Insert(s[n], SortDesc(s[..n]))
  }

  lemma {:induction false} SortDescSorted(s: seq<LogFile>)
    ensures SortedDesc(SortDesc(s))
    decreases |s|
  {
    if |s| > 0 {
      var n := |s| - 1;
      SortDescSorted(s[..n]);
      InsertSorted(s[n], SortDesc(s[..n]));
    }
  }

  /** The files looked at: log files, newest name first, at most twenty. */
  function SelectFiles(fs: seq<LogFile>): seq<LogFile> {
    var sorted := SortDesc(LogFiles(fs));
    sorted[..Min(|sorted|, FilesPerMember)]
  }

  function Min(a: int, b: int): int {
    if a <= b then a else b
  }

  function Max(a: int, b: int): int {
    if a >= b then a else b
  }

  /** The selection holds at most twenty log files of the directory, in
      non-increasing name order, and any log file left out is no newer than
      every one of the twenty selected. */
  lemma SelectFilesSpec(fs: seq<LogFile>)
    ensures var r := SelectFiles(fs);
      && |r| <= FilesPerMember
      && SortedDesc(r)
      && multiset(r) <= multiset(fs)
      && (forall i :: 0 <= i < |r| ==> IsLogFile(r[i]))
      && (forall f :: f in fs && IsLogFile(f) && f !in r ==>
            |r| == FilesPerMember && forall i :: 0 <= i < |r| ==> LexLessEq(f.name, r[i].name))
  {
    var logs := LogFiles(fs);
    var sorted := SortDesc(logs);
    SortDescSorted(logs);
    TakeNewest(sorted, FilesPerMember);
    var r := SelectFiles(fs);
    forall i | 0 <= i < |r| ensures IsLogFile(r[i]) {
      assert r[i] in multiset(logs);
    }
    forall f | f in fs && IsLogFile(f) ensures f in sorted {
      assert f in multiset(logs);
    }
  }

  /** The first `n` of a sorted list are sorted, and whatever is left out
      sorts no later than every one of them. */
  lemma TakeNewest(sorted: seq<LogFile>, n: nat)
    requires SortedDesc(sorted)
    ensures var r := sorted[..Min(|sorted|, n)];
      && SortedDesc(r)
      && multiset(r) <= multiset(sorted)
      && forall f :: f in sorted && f !in r ==>
           |r| == n && forall i :: 0 <= i < |r| ==> LexLessEq(f.name, r[i].name)
  {
    var r := sorted[..Min(|sorted|, n)];
    assert sorted == r + sorted[|r|..];
    forall f | f in sorted && f !in r
      ensures |r| == n && forall i :: 0 <= i < |r| ==> LexLessEq(f.name, r[i].name)
    {
      var k :| 0 <= k < |sorted| && sorted[k] == f;
      assert k >= |r|;
    }
  }

  /** The date of a log file: its name with `_log.md` removed. */
  function FileDate(f: LogFile): string {
    RemoveAll(f.name, LogSuffix)
  }

  /** The inclusive date window; an absent bound does not restrict. */
  predicate InDateRange(q: Query, date: string) {
    (q.dateFrom == "" || !LexLess(date, q.dateFrom))
    && (q.dateTo == "" || !LexLess(q.dateTo, date))
  }

  /** Both bounds are inclusive: a date is kept iff it lies between them in
      string order. */
  lemma DateRangeInclusive(q: Query, date: string)
    ensures InDateRange(q, date)
        <==> (q.dateFrom == "" || LexLessEq(q.dateFrom, date)) && (q.dateTo == "" || LexLessEq(date, q.dateTo))
  {
    LexNotLess(date, q.dateFrom);
    LexNotLess(q.dateTo, date);
  }

  // -------------------------------------------------------- classification

  /** Python's `str(v)` of a decoded value. */
  function ValueText(v: Value): string {
    match v
    case Str(s) => s
    case List(items) => PyRepr(items)
  }

  /** Some value of the front matter contains the project name, ignoring case. */
  predicate ProjectHit(project: string, fm: Data) {
    exists k :: k in fm && Contains(Lower(ValueText(fm[k])), Lower(project))
  }

  predicate KeywordHit(keyword: string, content: string) {
    Contains(Lower(content), Lower(keyword))
  }

  /** The first line containing `kw` (already lower-cased), ignoring case. */
  function FirstLineWith(lines: seq<string>, kw: string): (r: Option<nat>)
    ensures r.Some? ==> r.value < |lines| && Contains(Lower(lines[r.value]), kw)
    ensures r.Some? ==> forall i :: 0 <= i < r.value ==> !Contains(Lower(lines[i]), kw)
    ensures r.None? ==> forall i :: 0 <= i < |lines| ==> !Contains(Lower(lines[i]), kw)
    decreases |lines|
  {
    if |lines| == 0 then None
    else if Contains(Lower(lines[0]), kw) then Some(0)
    else match FirstLineWith(lines[1..], kw)
      case None => None
      case Some(i) => Some(i + 1)
  }

  /** Line `i` with up to two lines of context on each side. */
  function Context(lines: seq<string>, i: nat): string
    requires i < |lines|
  {
    Join(lines[Max(0, i - 2)..Min(|lines|, i + 3)], '\n')
  }

  /** `excerpt[:300]`. */
  function Clip(e: string): (r: string)
    ensures |r| <= ExcerptLimit && |r| == Min(|e|, ExcerptLimit)
    ensures |e| <= ExcerptLimit ==> r == e
    ensures r == e[..|r|]
  {
    e[..Min(|e|, ExcerptLimit)]
  }

  /** The verdict on one fetched file: matched or not, the type and the
      unclipped excerpt, in the order the source assigns them (project, then
      keyword, then the no-filter case). */
  datatype Verdict = Verdict(matched: bool, matchType: MatchType, excerpt: string)

  function Assess(q: Query, fm: Data, content: string): (v: Verdict)
    ensures v.matched <==>
      || (q.project != "" && ProjectHit(q.project, fm))
      || (q.keyword != "" && KeywordHit(q.keyword, content))
      || (q.keyword == "" && q.project == "")
    ensures v.matched && q.keyword != "" && KeywordHit(q.keyword, content) ==> v.matchType == KeywordMatch
    ensures (v.matched && q.project != "" && ProjectHit(q.project, fm)
             && !(q.keyword != "" && KeywordHit(q.keyword, content))) ==> v.matchType == ProjectMatch
    ensures v.matched && q.keyword == "" && q.project == "" ==> v.matchType == AllMatch
  {
    var afterProject :=
      if q.project != "" && ProjectHit(q.project, fm) then Verdict(true, ProjectMatch, ProjectLabel + q.project)
      else Verdict(false, AllMatch, "");
    var afterKeyword :=
      if q.keyword != "" && KeywordHit(q.keyword, content) then
        var lines := Split(content, '\n');
        match FirstLineWith(lines, Lower(q.keyword))
        case Some(i) => Verdict(true, KeywordMatch, Context(lines, i))
        case None => Verdict(true, KeywordMatch, afterProject.excerpt)
      else afterProject;
    if q.keyword == "" && q.project == "" then
      var ai := if AiKey in fm then fm[AiKey] else Str("");
      Verdict(true, AllMatch, if ai.Truthy() then AiLabel + ValueText(ai) else afterKeyword.excerpt)
    else afterKeyword
  }

  /** The hit a selected file yields, if any: `None` when the date is outside
      the window, the content could not be fetched or the file does not match. */
  function EvaluateFile(q: Query, memberId: string, f: LogFile): (r: Option<Hit>)
    ensures r.Some? ==> InDateRange(q, FileDate(f)) && f.content.Some?
    ensures r.Some? ==> |r.value.excerpt| <= ExcerptLimit && r.value.date == FileDate(f)
    ensures r.Some? ==> r.value.memberId == memberId && r.value.url == f.htmlUrl
    ensures r.Some? <==>
      InDateRange(q, FileDate(f)) && f.content.Some?
      && Assess(q, ParseFrontMatter(f.content.value), f.content.value).matched
    ensures r.Some? ==>
      var c := f.content.value;
      var v := Assess(q, ParseFrontMatter(c), c);
      r.value.matchType == v.matchType && r.value.excerpt == Clip(v.excerpt)
      && r.value.frontMatter == ParseFrontMatter(c)
    ensures r.Some? ==>
      var fm := ParseFrontMatter(f.content.value);
      r.value.memberName == (if "member_name" in fm then fm["member_name"] else Str(memberId))
  {
    var date := FileDate(f);
    if !InDateRange(q, date) || f.content.None? then None
    else
      var fm := ParseFrontMatter(f.content.value);
      var v := Assess(q, fm, f.content.value);
      if !v.matched then None
      else
        var name := if "member_name" in fm then fm["member_name"] else Str(memberId);
        Some(Hit(memberId, name, date, v.matchType, Clip(v.excerpt), f.htmlUrl, fm))
  }

  // ------------------------------------------------------------ the sweep

  /** The present values, in order. */
  function Somes<T>(os: seq<Option<T>>): (r: seq<T>)
    ensures |r| <= |os|
    decreases |os|
  {
    if |os| == 0 then []
    else match os[0]
      case None => Somes(os[1..])
      case Some(x) => [x] + Somes(os[1..])
  }

  lemma {:induction false} SomesAppend<T>(a: seq<Option<T>>, b: seq<Option<T>>)
    ensures Somes(a + b) == Somes(a) + Somes(b)
    decreases |a|
  {
    if |a| == 0 {
      assert a + b == b;
    } else {
      assert (a + b)[1..] == a[1..] + b;
      SomesAppend(a[1..], b);
    }
  }

  /** One more element adds its value, if it has one, at the end. */
  lemma SomesSnoc<T>(os: seq<Option<T>>, j: nat)
    requires j < |os|
    ensures Somes(os[..j + 1]) == Somes(os[..j]) + (if os[j].Some? then [os[j].value] else [])
  {
    assert os[..j + 1] == os[..j] + [os[j]];
    SomesAppend(os[..j], [os[j]]);
  }

  lemma SomesPrefix<T>(os: seq<Option<T>>, j: nat)
    requires j <= |os|
    ensures Somes(os[..j]) <= Somes(os)
  {
    assert os == os[..j] + os[j..];
    SomesAppend(os[..j], os[j..]);
  }

  function Flatten<T>(xss: seq<seq<T>>): seq<T>
    decreases |xss|
  {
    if |xss| == 0 then [] else xss[0] + Flatten(xss[1..])
  }

  lemma {:induction false} FlattenAppend<T>(a: seq<seq<T>>, b: seq<seq<T>>)
    ensures Flatten(a + b) == Flatten(a) + Flatten(b)
    decreases |a|
  {
    if |a| == 0 {
      assert a + b == b;
    } else {
      assert (a + b)[1..] == a[1..] + b;
      FlattenAppend(a[1..], b);
    }
  }

  lemma FlattenSnoc<T>(xss: seq<seq<T>>, i: nat)
    requires i < |xss|
    ensures Flatten(xss[..i + 1]) == Flatten(xss[..i]) + xss[i]
  {
    assert xss[..i + 1] == xss[..i] + [xss[i]];
    FlattenAppend(xss[..i], [xss[i]]);
    assert Flatten([xss[i]]) == xss[i] + Flatten([xss[i]][1..]);
  }

  lemma FlattenSplit<T>(xss: seq<seq<T>>, i: nat)
    requires i < |xss|
    ensures Flatten(xss) == Flatten(xss[..i]) + xss[i] + Flatten(xss[i + 1..])
  {
    assert xss == xss[..i + 1] + xss[i + 1..];
    FlattenAppend(xss[..i + 1], xss[i + 1..]);
    FlattenSnoc(xss, i);
  }

  /** What each selected file yields, file by file. */
  function Evaluations(q: Query, memberId: string, fs: seq<LogFile>): (r: seq<Option<Hit>>)
    ensures |r| == |fs|
  {
    seq(|fs|, k requires 0 <= k < |fs| => EvaluateFile(q, memberId, fs[k]))
  }

  function FileHits(q: Query, memberId: string, fs: seq<LogFile>): seq<Hit> {
    Somes(Evaluations(q, memberId, fs))
  }

  /** The hits of one member: none when the member filter rejects the
      directory or its listing failed. */
  function MemberHits(q: Query, m: MemberDir): seq<Hit> {
    if !MemberSelected(q, m.memberId) || m.files.None? then []
    else FileHits(q, m.memberId, SelectFiles(m.files.value))
  }

  function PerMember(q: Query, ms: seq<MemberDir>): (r: seq<seq<Hit>>)
    ensures |r| == |ms|
  {
    seq(|ms|, i requires 0 <= i < |ms| => MemberHits(q, ms[i]))
  }

  /** Every hit of every member, in directory order, before the limit. */
  function AllHits(q: Query, ms: seq<MemberDir>): seq<Hit> {
    Flatten(PerMember(q, ms))
  }

  /** The source returns as soon as the list reaches `limit` after an append,
      so at least one hit is returned even for a limit below one. */
  function Cap(hits: seq<Hit>, limit: int): (r: seq<Hit>)
    ensures |r| <= Max(limit, 1) && |r| <= |hits| && r == hits[..|r|]
    ensures |hits| <= Max(limit, 1) ==> r == hits
    ensures |hits| >= Max(limit, 1) ==> |r| == Max(limit, 1)
  {
    hits[..Min(|hits|, Max(limit, 1))]
  }

  lemma CapOfPrefix(all: seq<Hit>, got: seq<Hit>, limit: int)
    requires got <= all && |got| == Max(limit, 1)
    ensures Cap(all, limit) == got
  {
  }

  /** Appends the present values of `os` to `r0` one at a time, stopping as
      soon as the list holds `max(limit, 1)` values; `stopped` says whether it
      did. */
  method Collect<T>(r0: seq<T>, os: seq<Option<T>>, limit: int) returns (r: seq<T>, stopped: bool)
    requires |r0| < Max(limit, 1)
    ensures !stopped ==> r == r0 + Somes(os) && |r| < Max(limit, 1)
    ensures stopped ==> |r| == Max(limit, 1) && r <= r0 + Somes(os)
  {
    r := r0;
    var j := 0;
    while j < |os|
      invariant 0 <= j <= |os|
      invariant r == r0 + Somes(os[..j])
      invariant |r| < Max(limit, 1)
    {
      SomesSnoc(os, j);
      if os[j].Some? {
        r := r + [os[j].value];
        if |r| >= limit {
          SomesPrefix(os, j + 1);
          PrefixBehind(r0, Somes(os[..j + 1]), Somes(os));
          return r, true;
        }
      }
      j := j + 1;
    }
    assert os[..j] == os;
    return r, false;
  }

  lemma PrefixBehind<T>(r0: seq<T>, a: seq<T>, b: seq<T>)
    requires a <= b
    ensures r0 + a <= r0 + b
  {
    assert (r0 + b)[..|r0| + |a|] == r0 + a;
  }

  /** The sweep as the source runs it: members in order, the selected files
      of each in order, stopping as soon as `limit` hits are collected. */
  method SearchTeamLogs(q: Query, ms: seq<MemberDir>) returns (r: seq<Hit>)
    ensures r == Cap(AllHits(q, ms), q.limit)
  {
    ghost var per := PerMember(q, ms);
    r := [];
    var i := 0;
    while i < |ms|
      invariant 0 <= i <= |ms|
      invariant r == Flatten(per[..i])
      invariant |r| < Max(q.limit, 1)
    {
      var stopped;
      r, stopped := SweepMember(q, ms, i, r);
      if stopped {
        return;
      }
      i := i + 1;
    }
    assert per[..i] == per;
  }

  /** One member's turn of the sweep: its selected files in order, stopping
      the whole search once the limit is reached. */
  method SweepMember(q: Query, ms: seq<MemberDir>, i: nat, r0: seq<Hit>) returns (r: seq<Hit>, stopped: bool)
    requires i < |ms| && r0 == Flatten(PerMember(q, ms)[..i]) && |r0| < Max(q.limit, 1)
    ensures !stopped ==> r == Flatten(PerMember(q, ms)[..i + 1]) && |r| < Max(q.limit, 1)
    ensures stopped ==> r == Cap(AllHits(q, ms), q.limit)
  {
    ghost var per := PerMember(q, ms);
    var m := ms[i];
    if MemberSelected(q, m.memberId) && m.files.Some? {
      var evs := Evaluations(q, m.memberId, SelectFiles(m.files.value));
      r, stopped := Collect(r0, evs, q.limit);
      MemberStep(q, ms, i, evs);
      if stopped {
        StoppedCap(per, i, r0, r, q.limit);
      } else {
        FlattenSnoc(per, i);
      }
    } else {
      assert per[i] == [];
      FlattenSnoc(per, i);
      r, stopped := r0, false;
    }
  }

  lemma MemberStep(q: Query, ms: seq<MemberDir>, i: nat, evs: seq<Option<Hit>>)
    requires i < |ms| && MemberSelected(q, ms[i].memberId) && ms[i].files.Some?
    requires evs == Evaluations(q, ms[i].memberId, SelectFiles(ms[i].files.value))
    ensures PerMember(q, ms)[i] == Somes(evs)
  {
  }

  /** A list cut off at the limit inside member `i` is what `Cap` keeps. */
  lemma StoppedCap(per: seq<seq<Hit>>, i: nat, base: seq<Hit>, r: seq<Hit>, limit: int)
    requires i < |per| && base == Flatten(per[..i])
    requires r <= base + per[i] && |r| == Max(limit, 1)
    ensures Cap(Flatten(per), limit) == r
  {
    FlattenSplit(per, i);
    PrefixGrow(r, base + per[i], Flatten(per[i + 1..]));
    CapOfPrefix(Flatten(per), r, limit);
  }

  lemma PrefixGrow<T>(r: seq<T>, a: seq<T>, c: seq<T>)
    requires r <= a
    ensures r <= a + c
  {
    assert (a + c)[..|r|] == a[..|r|];
  }

  // ------------------------------------------------------------ properties

  /** With neither keyword nor project, every file in the date window whose
      content was fetched is a hit of type `all`. */
  lemma NoFilterMatchesAll(q: Query, id: string, f: LogFile)
    requires q.keyword == "" && q.project == ""
    requires InDateRange(q, FileDate(f)) && f.content.Some?
    ensures EvaluateFile(q, id, f).Some? && EvaluateFile(q, id, f).value.matchType == AllMatch
    ensures var fm := ParseFrontMatter(f.content.value);
      var ai := if AiKey in fm then fm[AiKey] else Str("");
      EvaluateFile(q, id, f).value.excerpt == Clip(if ai.Truthy() then AiLabel + ValueText(ai) else "")
  {
  }

  /** A fetched file in the window whose content has the keyword on line `i`,
      and on no earlier line, is found as a `keyword` hit whose excerpt is
      that line with its context, clipped. */
  lemma KeywordFileFound(q: Query, id: string, f: LogFile, i: nat)
    requires q.keyword != "" && InDateRange(q, FileDate(f)) && f.content.Some?
    requires var lines := Split(f.content.value, '\n');
      i < |lines| && Contains(Lower(lines[i]), Lower(q.keyword))
      && forall k :: 0 <= k < i ==> !Contains(Lower(lines[k]), Lower(q.keyword))
    ensures var r := EvaluateFile(q, id, f);
      r.Some? && r.value.matchType == KeywordMatch
      && r.value.excerpt == Clip(Context(Split(f.content.value, '\n'), i))
  {
    var c := f.content.value;
    KeywordExcerpt(q, ParseFrontMatter(c), c, i);
  }

  /** A fetched file in the window whose front matter mentions the project,
      and which the keyword (if any) does not hit, is found as a `project`
      hit. */
  lemma ProjectFileFound(q: Query, id: string, f: LogFile)
    requires q.project != "" && InDateRange(q, FileDate(f)) && f.content.Some?
    requires ProjectHit(q.project, ParseFrontMatter(f.content.value))
    requires !(q.keyword != "" && KeywordHit(q.keyword, f.content.value))
    ensures var r := EvaluateFile(q, id, f);
      r.Some? && r.value.matchType == ProjectMatch && r.value.excerpt == Clip(ProjectLabel + q.project)
  {
  }

  /** A keyword found on some line gives that first line with its context as
      the excerpt, even when the project also matched. */
  lemma KeywordExcerpt(q: Query, fm: Data, content: string, i: nat)
    requires q.keyword != ""
    requires var lines := Split(content, '\n');
      i < |lines| && Contains(Lower(lines[i]), Lower(q.keyword))
      && forall k :: 0 <= k < i ==> !Contains(Lower(lines[k]), Lower(q.keyword))
    ensures Assess(q, fm, content) == Verdict(true, KeywordMatch, Context(Split(content, '\n'), i))
  {
    var lines := Split(content, '\n');
    LineHitIsHit(lines, i, Lower(q.keyword));
    var r := FirstLineWith(lines, Lower(q.keyword));
    assert r.Some?;
  }

  /** A line that contains the keyword makes the whole text contain it. */
  lemma LineHitIsHit(lines: seq<string>, i: nat, kw: string)
    requires i < |lines| && Contains(Lower(lines[i]), kw)
    ensures Contains(Lower(Join(lines, '\n')), kw)
  {
    SliceHit(Join(lines, '\n'), JoinOffset(lines, i), lines[i], kw);
  }

  lemma SliceHit(s: string, off: nat, line: string, kw: string)
    requires off + |line| <= |s| && s[off..off + |line|] == line
    requires Contains(Lower(line), kw)
    ensures Contains(Lower(s), kw)
  {
    LowerSlice(s, off, off + |line|);
    ContainsSlice(Lower(s), off, off + |line|, kw);
  }

  /** Where line `i` starts in the joined text. */
  function JoinOffset(lines: seq<string>, i: nat): (off: nat)
    requires i < |lines|
    ensures off + |lines[i]| <= |Join(lines, '\n')|
    ensures Join(lines, '\n')[off..off + |lines[i]|] == lines[i]
    decreases i
  {
    if i == 0 then
      assert Join(lines, '\n')[..|lines[0]|] == lines[0];
      0
    else
      var off := JoinOffset(lines[1..], i - 1);
      var head := lines[0] + ['\n'];
      assert Join(lines, '\n') == head + Join(lines[1..], '\n');
      SliceBehind(head, Join(lines[1..], '\n'), off, off + |lines[i]|);
      |head| + off
  }

  /** A slice behind a prefix is the same slice of what follows it. */
  lemma SliceBehind<T>(a: seq<T>, b: seq<T>, x: nat, y: nat)
    requires x <= y <= |b|
    ensures (a + b)[|a| + x..|a| + y] == b[x..y]
  {
  }

  /** Every hit names a directory that passed the member filter, carries a
      date inside the window and an excerpt of at most 300 characters. */
  lemma {:induction false} HitsSound(q: Query, ms: seq<MemberDir>, h: Hit)
    requires h in AllHits(q, ms)
    ensures exists i :: 0 <= i < |ms| && ms[i].memberId == h.memberId && MemberSelected(q, ms[i].memberId)
    ensures InDateRange(q, h.date) && |h.excerpt| <= ExcerptLimit
  {
    var per := PerMember(q, ms);
    FlattenMember(per, h);
    var i :| 0 <= i < |per| && h in per[i];
    var m := ms[i];
    assert per[i] == MemberHits(q, m);
    var evs := Evaluations(q, m.memberId, SelectFiles(m.files.value));
    SomesMember(evs, h);
    var k :| 0 <= k < |evs| && evs[k] == Some(h);
  }

  lemma {:induction false} FlattenMember<T>(xss: seq<seq<T>>, x: T)
    requires x in Flatten(xss)
    ensures exists i :: 0 <= i < |xss| && x in xss[i]
    decreases |xss|
  {
    if x !in xss[0] {
      FlattenMember(xss[1..], x);
      var i :| 0 <= i < |xss[1..]| && x in xss[1..][i];
      assert x in xss[i + 1];
    }
  }

  lemma {:induction false} SomesMember<T>(os: seq<Option<T>>, x: T)
    requires x in Somes(os)
    ensures exists k :: 0 <= k < |os| && os[k] == Some(x)
    decreases |os|
  {
    if os[0] != Some(x) {
      SomesMember(os[1..], x);
      var k :| 0 <= k < |os[1..]| && os[1..][k] == Some(x);
      assert os[k + 1] == Some(x);
    }
  }

  /** A log written by this tool never has an `ai_learning` excerpt: the
      generator writes the entry's fields as indented lines, which the parser
      skips, so the entry reads back as an empty list and a no-filter match of
      such a log carries an empty excerpt. */
  lemma GeneratedLogExcerpt(q: Query, h: Header, body: string, sd: Option<Structured>,
                            dateTitle: string, weekday: string, clock: string)
    requires q.keyword == "" && q.project == ""
    requires WellFormedHeader(h) && (sd.Some? ==> WellFormedStructured(sd.value))
    ensures var c := CreateLogContent(h, body, sd, dateTitle, weekday, clock);
      Assess(q, ParseFrontMatter(c), c) == Verdict(true, AllMatch, "")
  {
    var c := CreateLogContent(h, body, sd, dateTitle, weekday, clock);
    CreateThenParse(h, body, sd, dateTitle, weekday, clock);
    DecodedAi(h, sd);
  }

  lemma DecodedAi(h: Header, sd: Option<Structured>)
    ensures AiKey in Decoded(h, sd) ==> !Decoded(h, sd)[AiKey].Truthy()
  {
    match sd
    case None =>
      assert AiKey !in HeaderMap(h);
    case Some(s) =>
      SectionsNoAi(HeaderMap(h), s);
  }

  lemma SectionsNoAi(d: Data, s: Structured)
    requires AiKey !in d
    ensures AiKey in StructuredMap(d, s) ==> StructuredMap(d, s)[AiKey] == List([])
  {
    var d1 := WithSection(d, s.done, Done);
    var d2 := WithSection(d1, s.inProgress, InProgress);
    var d3 := WithSection(d2, s.tomorrow, Tomorrow);
    forall sec: Section ensures SectionKey(sec) != AiKey {
      assert |SectionKey(sec)| != |AiKey|;
    }
    assert AiKey !in d3;
    assert BlockersKey != AiKey;
  }
}

=== FILE: text.dfy ===
/** The handful of Python `str` operations the scripts rely on, written out
    with Python's semantics: `strip`, `rstrip`, `strip(chars)`, `split(c)`,
    `join`, `in` (substring), the first-occurrence search behind
    `split(p, 2)`, `replace(p, "")`, ASCII `lower()` and the
    code-point lexicographic `<` used to compare dates and timestamps. */
module Text {
  import opened Wrappers

  /** The characters for which Python's `str.isspace()` holds; `strip()` and
      `rstrip()` with no argument remove exactly these. */
  const Whitespace: set<char> := {
    '\t', '\n', '\U{0b}', '\U{0c}', '\r', '\U{1c}', '\U{1d}', '\U{1e}', '\U{1f}', ' ',
    '\U{85}', '\U{a0}', '\U{1680}',
    '\U{2000}', '\U{2001}', '\U{2002}', '\U{2003}', '\U{2004}', '\U{2005}',
    '\U{2006}', '\U{2007}', '\U{2008}', '\U{2009}', '\U{200a}',
    '\U{2028}', '\U{2029}', '\U{202f}', '\U{205f}', '\U{3000}'
  }

  // ---------------------------------------------------------------- stripping

  /** `s.lstrip(chars)`: drops the longest prefix made of characters in `cs`. */
  function LStripSet(s: string, cs: set<char>): (r: string)
    ensures |r| <= |s| && r == s[|s| - |r|..]
    ensures forall i :: 0 <= i < |s| - |r| ==> s[i] in cs
    ensures |r| > 0 ==> r[0] !in cs
    decreases |s|
  {
    if |s| > 0 && s[0] in cs then LStripSet(s[1..], cs) else s
  }

  /** `s.rstrip(chars)`: drops the longest suffix made of characters in `cs`. */
  function RStripSet(s: string, cs: set<char>): (r: string)
    ensures |r| <= |s| && r == s[..|r|]
    ensures forall i :: |r| <= i < |s| ==> s[i] in cs
    ensures |r| > 0 ==> r[|r| - 1] !in cs
    decreases |s|
  {
    if |s| > 0 && s[|s| - 1] in cs then RStripSet(s[..|s| - 1], cs) else s
  }

  /** Neither end of `s` is a character of `cs`. */
  predicate NoEdge(s: string, cs: set<char>) {
    |s| > 0 ==> s[0] !in cs && s[|s| - 1] !in cs
  }

  /** `s.strip(chars)`: both ends; what is left is a contiguous piece of `s`
      with no character of `cs` at either end. */
  function StripSet(s: string, cs: set<char>): (r: string)
    ensures NoEdge(r, cs)
    ensures Contains(s, r)
  {
    var l := LStripSet(s, cs);
    var r := RStripSet(l, cs);
    assert OccursAt(s, r, |s| - |l|);
    r
  }

  function RStrip(s: string): string { RStripSet(s, Whitespace) }

  function Strip(s: string): string { StripSet(s, Whitespace) }

  /** A string whose ends carry no character of `cs` is left alone by `strip(cs)`. */
  lemma StripSetNoop(s: string, cs: set<char>)
    requires NoEdge(s, cs)
    ensures StripSet(s, cs) == s
  {
  }

  /** Leading characters of `cs` make no difference to `lstrip(cs)`. */
  lemma {:induction false} LStripPrefix(pre: string, t: string, cs: set<char>)
    requires forall i :: 0 <= i < |pre| ==> pre[i] in cs
    ensures LStripSet(pre + t, cs) == LStripSet(t, cs)
    decreases |pre|
  {
    if |pre| > 0 {
      assert (pre + t)[0] == pre[0] && pre[0] in cs;
      assert (pre + t)[1..] == pre[1..] + t;
      assert LStripSet(pre + t, cs) == LStripSet(pre[1..] + t, cs);
      LStripPrefix(pre[1..], t, cs);
    } else {
      assert pre + t == t;
    }
  }

  /** Trailing characters of `cs` make no difference to `rstrip(cs)`. */
  lemma {:induction false} RStripSuffix(t: string, post: string, cs: set<char>)
    requires forall i :: 0 <= i < |post| ==> post[i] in cs
    ensures RStripSet(t + post, cs) == RStripSet(t, cs)
    decreases |post|
  {
    if |post| > 0 {
      var n := |post| - 1;
      assert (t + post)[|t + post| - 1] == post[n];
      assert (t + post)[..|t + post| - 1] == t + post[..n];
      RStripSuffix(t, post[..n], cs);
    } else {
      assert t + post == t;
    }
  }

  /** Stripping a string padded by characters of `cs` recovers it. */
  lemma StripSetPadded(pre: string, s: string, post: string, cs: set<char>)
    requires forall i :: 0 <= i < |pre| ==> pre[i] in cs
    requires forall i :: 0 <= i < |post| ==> post[i] in cs
    requires |s| > 0 && s[0] !in cs && s[|s| - 1] !in cs
    ensures StripSet(pre + s + post, cs) == s
  {
    assert pre + s + post == pre + (s + post);
    LStripPrefix(pre, s + post, cs);
    assert (s + post)[0] == s[0];
    RStripSuffix(s, post, cs);
  }

  // ----------------------------------------------------------- prefix / search

  predicate StartsWith(s: string, p: string) {
    |p| <= |s| && s[..|p|] == p
  }

  predicate EndsWith(s: string, p: string) {
    |p| <= |s| && s[|s| - |p|..] == p
  }

  /** `p` occurs in `s` starting at index `i`. */
  predicate OccursAt(s: string, p: string, i: int) {
    0 <= i && i + |p| <= |s| && s[i..i + |p|] == p
  }

  /** Python's `p in s`. */
  predicate Contains(s: string, p: string) {
    exists i :: 0 <= i <= |s| && OccursAt(s, p, i)
  }

  /** The first index at or after `from` where `p` occurs in `s`: where
      `s.split(p, 2)` cuts once the first `from` characters are known to be
      `p`. `None` means there is no occurrence to cut at. */
  function FindFrom(s: string, p: string, from: nat): (r: Option<nat>)
    ensures r.Some? ==> from <= r.value && OccursAt(s, p, r.value)
    ensures r.Some? ==> forall j :: from <= j < r.value ==> !OccursAt(s, p, j)
    ensures r.None? ==> forall j :: from <= j ==> !OccursAt(s, p, j)
    decreases |s| - from
  {
    if from + |p| > |s| then None
    else if s[from..from + |p|] == p then Some(from)
    else FindFrom(s, p, from + 1)
  }

  /** The first index of character `c` in `s`. */
  function IndexOf(s: string, c: char): (r: Option<nat>)
    ensures r.Some? <==> c in s
    ensures r.Some? ==> r.value < |s| && s[r.value] == c && c !in s[..r.value]
  {
    if |s| == 0 then None
    else if s[0] == c then Some(0)
    else match IndexOf(s[1..], c)
      case None => None
      case Some(i) => assert s[..i + 1] == [s[0]] + s[1..][..i]; Some(i + 1)
  }

  lemma {:induction false} IndexOfJoined(a: string, c: char, b: string)
    requires c !in a
    ensures IndexOf(a + [c] + b, c) == Some(|a|)
    decreases |a|
  {
    if |a| > 0 {
      assert (a + [c] + b)[0] == a[0];
      assert (a + [c] + b)[1..] == a[1..] + [c] + b;
      IndexOfJoined(a[1..], c, b);
    }
  }

  // ------------------------------------------------------------ split / join

  /** `sep.join(xs)` for a one-character separator. */
  function Join(xs: seq<string>, sep: char): string
    decreases |xs|
  {
    if |xs| == 0 then ""
    else if |xs| == 1 then xs[0]
    else xs[0] + [sep] + Join(xs[1..], sep)
  }

  /** `s.split(sep)`: never empty, no piece holds `sep`, and joining the
      pieces back gives `s`. */
  function Split(s: string, sep: char): (r: seq<string>)
    ensures |r| >= 1
    ensures forall i :: 0 <= i < |r| ==> sep !in r[i]
    ensures Join(r, sep) == s
    decreases |s|
  {
    match IndexOf(s, sep)
    case None => [s]
    case Some(i) =>
      var rest := Split(s[i + 1..], sep);
      assert s == s[..i] + [sep] + s[i + 1..];
      [s[..i]] + rest
  }

  /** Splitting undoes joining when no piece holds the separator. */
  lemma {:induction false} SplitJoin(xs: seq<string>, sep: char)
    requires |xs| >= 1
    requires forall i :: 0 <= i < |xs| ==> sep !in xs[i]
    ensures Split(Join(xs, sep), sep) == xs
    decreases |xs|
  {
    if |xs| > 1 {
      SplitCons(xs[0], sep, Join(xs[1..], sep));
      SplitJoin(xs[1..], sep);
      assert xs == [xs[0]] + xs[1..];
    }
  }

  /** A separator-free piece and a separator come off the front as one piece. */
  lemma SplitCons(a: string, sep: char, tail: string)
    requires sep !in a
    ensures Split(a + [sep] + tail, sep) == [a] + Split(tail, sep)
  {
    IndexOfJoined(a, sep, tail);
    assert (a + [sep] + tail)[|a| + 1..] == tail;
    assert (a + [sep] + tail)[..|a|] == a;
  }

  /** Joining a concatenation puts one separator between the two halves. */
  lemma {:induction false} JoinAppend(xs: seq<string>, ys: seq<string>, sep: char)
    requires |xs| >= 1 && |ys| >= 1
    ensures Join(xs + ys, sep) == Join(xs, sep) + [sep] + Join(ys, sep)
    decreases |xs|
  {
    if |xs| == 1 {
      assert (xs + ys)[1..] == ys;
    } else {
      assert (xs + ys)[1..] == xs[1..] + ys;
      JoinAppend(xs[1..], ys, sep);
    }
  }

  /** The separator is never in a join of separator-free pieces unless there
      are at least two pieces. */
  lemma {:induction false} JoinFree(xs: seq<string>, sep: char, c: char)
    requires c != sep
    requires forall i :: 0 <= i < |xs| ==> c !in xs[i]
    ensures c !in Join(xs, sep)
    decreases |xs|
  {
    if |xs| > 1 {
      JoinFree(xs[1..], sep, c);
    }
  }

  // ------------------------------------------------------------------ lower

  /** Python's `str.lower()` on the ASCII letters; other characters are kept. */
  function LowerChar(c: char): char {
    if 'A' <= c <= 'Z' then (c as int + 32) as char else c
  }

  function Lower(s: string): (r: string)
    ensures |r| == |s|
    ensures forall i :: 0 <= i < |s| ==> r[i] == LowerChar(s[i])
  {
    seq(|s|, i requires 0 <= i < |s| => LowerChar(s[i]))
  }

  // ---------------------------------------------------------------- replace

  /** `s.replace(p, "")`: deletes every non-overlapping occurrence of `p`,
      scanning from the left. */
  function RemoveAll(s: string, p: string): string
    requires |p| > 0
    decreases |s|
  {
    if |s| < |p| then s
    else if s[..|p|] == p then RemoveAll(s[|p|..], p)
    else [s[0]] + RemoveAll(s[1..], p)
  }

  /** Removing `p` from `d + p` gives back `d` when `d` never holds the first
      character of `p` (no occurrence can start inside `d`). */
  lemma {:induction false} RemoveAllSuffix(d: string, p: string)
    requires |p| > 0 && p[0] !in d
    ensures RemoveAll(d + p, p) == d
    decreases |d|
  {
    if |d| == 0 {
      assert d + p == p;
      assert p[|p|..] == "";
    } else {
      assert (d + p)[0] == d[0] != p[0];
      assert (d + p)[1..] == d[1..] + p;
      RemoveAllSuffix(d[1..], p);
      assert d == [d[0]] + d[1..];
    }
  }

  // ------------------------------------------------------ lexicographic order

  /** Python's `a < b` on strings: code-point lexicographic order, where a
      proper prefix sorts first. (Dafny's own `<` on sequences means proper
      prefix, which is a different relation.) */
  predicate LexLess(a: string, b: string)
    decreases |a|
  {
    |b| > 0 && (|a| == 0 || a[0] < b[0] || (a[0] == b[0] && LexLess(a[1..], b[1..])))
  }

  /** Python's `a <= b`. */
  predicate LexLessEq(a: string, b: string) {
    a == b || LexLess(a, b)
  }

  lemma {:induction false} LexIrreflexive(a: string)
    ensures !LexLess(a, a)
    decreases |a|
  {
    if |a| > 0 {
      LexIrreflexive(a[1..]);
    }
  }

  lemma {:induction false} LexTransitive(a: string, b: string, c: string)
    requires LexLess(a, b) && LexLess(b, c)
    ensures LexLess(a, c)
    decreases |a|
  {
    if |a| > 0 && a[0] == b[0] && b[0] == c[0] {
      LexTransitive(a[1..], b[1..], c[1..]);
    }
  }

  /** Any two strings are equal or ordered one way. */
  lemma {:induction false} LexTotal(a: string, b: string)
    ensures a == b || LexLess(a, b) || LexLess(b, a)
    decreases |a|
  {
    if |a| > 0 && |b| > 0 && a[0] == b[0] {
      LexTotal(a[1..], b[1..]);
      if a[1..] == b[1..] {
        assert a == [a[0]] + a[1..] && b == [b[0]] + b[1..];
      }
    }
  }

  lemma LexAsymmetric(a: string, b: string)
    ensures !(LexLess(a, b) && LexLess(b, a))
  {
    if LexLess(a, b) && LexLess(b, a) {
      LexTransitive(a, b, a);
      LexIrreflexive(a);
    }
  }

  /** "not greater" is the same as "less or equal": the negations the scripts
      write (`if d < from: skip`) keep exactly the `from <= d` items. */
  lemma LexNotLess(a: string, b: string)
    ensures !LexLess(a, b) <==> LexLessEq(b, a)
  {
    LexTotal(a, b);
    LexAsymmetric(a, b);
    LexIrreflexive(a);
  }

  lemma LexLessEqTransitive(a: string, b: string, c: string)
    requires LexLessEq(a, b) && LexLessEq(b, c)
    ensures LexLessEq(a, c)
  {
    if LexLess(a, b) && LexLess(b, c) {
      LexTransitive(a, b, c);
    }
  }

  /** What a slice of `s` contains, `s` contains. */
  lemma ContainsSlice(s: string, lo: nat, hi: nat, p: string)
    requires lo <= hi <= |s| && Contains(s[lo..hi], p)
    ensures Contains(s, p)
  {
    var k :| 0 <= k <= hi - lo && OccursAt(s[lo..hi], p, k);
    var t := s[lo..hi];
    assert t[k..k + |p|] == p;
    forall m | 0 <= m < |p| ensures s[lo + k..lo + k + |p|][m] == p[m] {
      assert t[k..k + |p|][m] == t[k + m] == s[lo + k + m];
    }
    assert s[lo + k..lo + k + |p|] == p;
    assert OccursAt(s, p, lo + k);
  }

  lemma LowerSlice(s: string, lo: nat, hi: nat)
    requires lo <= hi <= |s|
    ensures Lower(s)[lo..hi] == Lower(s[lo..hi])
  {
  }
}

=== FILE: wrappers.dfy ===
/** Optional values and success-or-error results, the two shapes the scripts
    use for "maybe absent" (None / a failed HTTP call) and "raises or returns". */
module Wrappers {

  datatype Option<+T> = None | Some(value: T) {

    /** The carried value, or `default` when absent. */
    function GetOr(default: T): T {
      match this
      case Some(v) => v
      case None => default
    }
  }

  datatype Result<+R, +E> = Success(value: R) | Failure(error: E)
}
